=== FILE: README.md ===
# GIN benchmark harness, modelled in Dafny

The modelled script compares PostgreSQL B-tree and GIN indexes on three
synthetic tables: `users` (JSONB profile), `articles` (text-array tags) and
`documents` (free text). It runs these steps in order:

1. It recreates the tables and fills each one with 1,000,000 rows, in batches of 10,000.
2. It creates the three B-tree indexes and times three fixed queries with EXPLAIN ANALYZE.
3. It reads the three index sizes and drops the B-tree indexes.
4. It does the same for the GIN family.
5. It merges the four per-query maps into one record per query.

A speedup of B-tree time over GIN time is shown for each query.

The model covers:

- the batch arithmetic and the rows the insert loops generate;
- the index-family state machine;
- the extraction of execution times from plan text;
- the byte-to-megabyte conversion, the speedup rule and the keyed merge;
- the main sequence.

The database session is the class `Harness.Database`. Its fields are the three tables' rows, the set of existing benchmark indexes and the number of committed transactions. A ghost history records the index set after each table recreation, index creation and index drop.

The store's answers are parameters:

- `explain(live, statement)` is the list of plan rows EXPLAIN ANALYZE returns while the indexes `live` exist;
- `bytesOf(name)` is `pg_total_relation_size(name)`.

Random choices are nondeterministic picks from their stated domains. Times and sizes are exact reals.

Files:

- `outcomes.dfy`: the `Option` and `Result` types.
- `strings.dfy`: the Python string operations the script relies on: `strip`, `split`, `join`, `in` and `replace`, plus the decimal text of an integer.
- `generation.dfy`: the row records, value domains and generated names, and the arithmetic of `range(0, n, batch_size)`.
- `indexes.dfy`: the six benchmark indexes and the create and drop transitions.
- `timing.dfy`: the three queries, the per-line parse, and the scan of a plan's lines and of all the queries.
- `metrics.dfy`: megabytes, speedup and the merge.
- `harness.dfy`: the database session and the main sequence.

## Model

| member | source | states |
|---|---|---|
| Strings.Decimal | main.py:36 | An integer's f-string text is a non-empty run of digits with no leading zero, and it reads back as that integer. |
| Strings.DecimalInjective | main.py:36 | Two integers have the same decimal text exactly when they are equal. |
| Strings.TrimLeft | main.py:119 | Left stripping removes exactly the leading whitespace and keeps a suffix of the text. |
| Strings.TrimRight | main.py:119 | Right stripping removes exactly the trailing whitespace and keeps a prefix of the text. |
| Strings.Strip | main.py:119 | `strip()` gives a slice of the text with only whitespace before and after it, and with no whitespace at either end of the slice. |
| Strings.StripKeeps | main.py:119 | A non-blank character, such as the colon, occurs in the stripped text exactly when it occurs in the line. |
| Strings.Split | main.py:117 | `split(sep)` gives at least one part, no part holds the separator, and there are two or more parts exactly when the separator occurs. |
| Strings.JoinSplit | main.py:115-117 | Joining the parts of a split with the same separator gives the text back. |
| Strings.SplitJoin | main.py:115-117 | Splitting the newline-join of rows that hold no newline gives the rows back. |
| Strings.SplitNoSep | main.py:119 | Text without the separator splits into itself alone. |
| Strings.SplitAtFirst | main.py:119 | The part before the first separator is the first field, and the rest is split on its own. |
| Strings.Join | main.py:115 | `sep.join(parts)` starts with the first part. When no part holds the separator, the separator occurs in the result exactly when there are two or more parts. JoinSplit and SplitJoin tie it to `split`. |
| Strings.Contains | main.py:118 | Python's `t in s` on strings, the reference definition whose meaning ContainsOccurs states. |
| Strings.ContainsOccurs | main.py:118 | `t in s` holds exactly when `t` occurs in `s` at some position. |
| Strings.RemoveAll | main.py:119 | `replace(" ms", "")` never lengthens the text and leaves text without the pattern unchanged. |
| Strings.RemoveAllRemovesOccurrence | main.py:119 | An occurrence of the pattern after a prefix that cannot start it is removed, and the replacement goes on after it. |
| Strings.RemoveAllKeepsPrefix | main.py:119 | A prefix that cannot start the pattern is kept as it is by the replacement. |
| Strings.FractionValue | main.py:119 | The digits after the decimal point are worth at least 0 and less than 1. Multiplied by ten to the number of digits, the value is those digits read as an integer. |
| Generation.DocumentContentWellFormed | main.py:65 | A document text is the fixed sentence followed by the digits of a number below 2^128. |
| Generation.UserName | main.py:36 | `user_{k}` is the prefix `user_` followed by digits that read back as k. |
| Generation.ArticleTitle | main.py:55 | `Article {k}` is the prefix `Article ` followed by digits that read back as k. |
| Generation.DocumentContent | main.py:65 | A document's text is the fixed sentence followed by digits that read back as the random number. |
| Generation.UserNamesDistinct | main.py:36 | `user_{k}` names are equal exactly when their row numbers are. |
| Generation.ArticleTitlesDistinct | main.py:55 | `Article {k}` titles are equal exactly when their row numbers are. |
| Generation.NumberedAppend | main.py:33-47 | Numbered batches that follow each other form one numbered run, so row k of the table is built from number k. |
| Generation.UserNamesUnique | main.py:33-45 | In a numbered users table, row i is named `user_i`, and two rows share a name only if they are the same row. |
| Generation.ArticleTitlesUnique | main.py:53-57 | In a numbered articles table, two rows share a title only if they are the same row. |
| Generation.BatchCount | main.py:33 | The number of iterations of `range(0, n, batch_size)` is the ceiling of n/batch_size for a positive step and 0 for a negative one. |
| Generation.BatchCountUnique | main.py:33 | Any c with n <= c*batch_size < n+batch_size is exactly that batch count. |
| Generation.RowCount | main.py:32-45 | The reference definition of how many rows an insert loop writes: one full batch of `batch_size` rows per step of `range(0, n, batch_size)`. RowCountBounds states its meaning, and the InsertUsers, InsertArticles and InsertDocuments ensures use it for the new table length. |
| Generation.RowCountBounds | main.py:33-45 | Full batches give at least n rows and fewer than n+batch_size, with exactly n rows iff batch_size divides n. |
| Indexes.IndexName | main.py:76-78 | The body builds `idx_<column>_<family>`. The ensures give its length, and IndexNameInjective keeps the six names apart. |
| Indexes.CreationOrder | main.py:76-86 | The three CREATE INDEX statements of a family (main.py:76-78 and 84-86) come in the order profile, tags, content. They name exactly the family's indexes, each once. |
| Indexes.IndexNameInjective | main.py:76-94 | The six index names are pairwise distinct. |
| Indexes.FamilyIndexes | main.py:76-86 | A family's indexes are exactly the indexes of that family, one on each of the three columns. |
| Indexes.DropTarget | main.py:90-94 | `drop_indexes` drops the B-tree family exactly when its argument is "btree", and the GIN family for any other argument. |
| Indexes.FamilyWord | main.py:161 | The argument the main script passes to `drop_indexes` for a family selects that family. |
| Indexes.AfterCreate | main.py:74-88 | Creation succeeds exactly when none of the family's indexes exists. It then adds them and changes nothing else. |
| Indexes.AfterDrop | main.py:90-95 | After a drop, none of the target family's indexes exists and every other index is untouched. |
| Indexes.AllExclusiveAppend | main.py:154-171 | Two runs of states in which the families never coexist join into one such run. |
| Indexes.FamiliesDisjoint | main.py:76-94 | The B-tree and GIN families share no index. |
| Indexes.DropIdempotent | main.py:90-95 | Dropping the same family twice leaves what dropping it once leaves. |
| Indexes.DropLeavesOtherFamily | main.py:90-94 | Dropping "btree" leaves the GIN indexes as they were, and the reverse. |
| Indexes.CreateThenDrop | main.py:154-171 | Creating a family on a set without it and then dropping it by its main-script argument restores the set. |
| Indexes.BenchmarkOrderIsSafe | main.py:154-171 | The main sequence create B-tree, drop "btree", create GIN, drop "gin" never fails and never holds both families. It ends where it started. |
| Timing.QueriesAreDistinct | main.py:106-110 | The three query names are distinct and are exactly "JSONB Query", "Array Query" and "Full-Text Query". |
| Timing.Statement | main.py:113 | The reference definition of `f"EXPLAIN ANALYZE {sql}"`, the text sent for a query. QueryLines passes it to the store. |
| Timing.PlanLines | main.py:115-117 | Joining the plan rows with newlines and splitting again gives at least one line. No line holds a newline, and the lines joined back give the joined rows. |
| Timing.PlanLinesAreRows | main.py:115-117 | When there is at least one plan row and no row holds a newline, the scanned lines are exactly the rows. Zero rows give one empty line. |
| Timing.QueryLines | main.py:113-117 | The reference definition of the lines scanned for one query: the store's rows for Statement(q) under the live indexes, joined and split by PlanLines. PlanLines' ensures and PlanLinesAreRows state its meaning, and TimingsEntries and QueryTimingsMeaning state what is read from it. |
| Timing.ParseFloat | main.py:119 | A text `float` cannot read fails with that text. |
| Timing.ParseTimingLine | main.py:119 | The line parse fails with IndexError exactly when the line has no colon. |
| Timing.ParseUnsigned | main.py:119 | The reference definition of the unsigned part of `float`: digits with at most one point and at least one digit. ParseUnsignedReadsDecimal states its meaning. |
| Timing.ParseUnsignedReadsDecimal | main.py:119 | Digits, a point and digits read as the number they spell. |
| Timing.ParseFloatReadsDecimal | main.py:119 | Any text that strips to "w.f" is read by `float` as w.f. |
| Timing.TimingLineFields | main.py:119 | Splitting "Execution Time: w.f ms" on ':' gives the marker and " w.f ms". |
| Timing.UnitRemoved | main.py:119 | Removing " ms" from " w.f ms" leaves " w.f". |
| Timing.TimingLineReadsMillis | main.py:119 | Every line "Execution Time: w.f ms" is read as the number w.f. |
| Timing.TimingLineExample | main.py:119 | "Execution Time: 12.345 ms" is read as 12.345. |
| Timing.LastMarker | main.py:117-118 | Gives the index of the last line holding "Execution Time", or none when no line holds it. |
| Timing.ScanLines | main.py:117-120 | The reference definition of the line loop of `run_queries` for one query. ScanKeepsLast, ScanFailsIff, ScanStopsAtFailure and ScanSkipsUnmarked state its meaning. |
| Timing.ScanKeepsLast | main.py:117-120 | A successful scan stores the value of the last marker line, or keeps the old entry when there is none. |
| Timing.ScanFailsIff | main.py:117-119 | The scan of a plan fails exactly when some marker line does not parse. |
| Timing.ScanSkipsUnmarked | main.py:118 | Lines without the marker are skipped and do not change the stored value. |
| Timing.ScanLastLine | main.py:118-120 | Unmarked lines followed by one marker line that parses store that line's value. |
| Timing.ScanStopsAtFailure | main.py:117-119 | The scan ends with the error of the first marker line that does not parse. The lines after it are never read. |
| Timing.ScanMissingColon | main.py:117-119 | A marker line with no colon, after marker lines that all parse, ends the scan with IndexError. |
| Timing.Put | main.py:120 | Storing a found value puts it under the query's name. With no value the entry stays as it was. Every other name keeps its entry. |
| Timing.Timings | main.py:111-121 | The reference definition of the query loop of `run_queries`. A successful run keeps every key stored before it and adds keys only under the query names. TimingsEntries, TimingsFailIff and QueryTimingsMeaning state the rest of its meaning. |
| Timing.TimingsKeepsAcc | main.py:111-121 | A successful run keeps every entry stored before it and adds keys only under the query names. |
| Timing.TimingsEntries | main.py:111-121 | For distinct, fresh names, each query's result entry is exactly what scanning its own plan from nothing produced. |
| Timing.TimingsKeys | main.py:105-121 | The result of `run_queries` has keys only among the three query names, whatever the line parse. |
| Timing.TimingsFailIff | main.py:112-121 | A run over the queries fails exactly when the scan of some query's plan fails. |
| Timing.QueryTimingsMeaning | main.py:105-121 | `run_queries` fails exactly when some marker line of some plan does not parse. Its keys lie among the query names. A name is present exactly when its plan has a marker line, and its value is what the last such line parses to. |
| Metrics.Megabytes | main.py:103 | The size in megabytes times 1024*1024 is the byte count, and it is never negative. |
| Metrics.MegabytesOfWholeMegabytes | main.py:103 | k*1048576 bytes are exactly k megabytes. |
| Metrics.MegabytesMonotone | main.py:103 | More bytes never give fewer megabytes, and the reverse. |
| Metrics.Speedup | main.py:136 | With a non-zero GIN time, speedup times the GIN time is the B-tree time. A zero GIN time gives 0. Non-negative times give a non-negative speedup. |
| Metrics.SpeedupComparesTimes | main.py:136 | With a positive GIN time, the speedup exceeds 1 exactly when GIN is faster, and equals 1 exactly when the times agree. |
| Metrics.EntryOf | main.py:175-178 | The reference definition of the record literal `{"btree": {...}, "gin": {...}}` for one query. MergeMetrics' ensures state that each merged entry is this record of the four values stored under its key. |
| Metrics.MergeMetrics | main.py:174-178 | The merge succeeds exactly when every B-tree key is in the other three maps. Its keys are then the B-tree keys, and each entry pairs the four stored values. On failure it reports a B-tree key and the first of the three lookups that misses it. |
| Harness.QueryIndex | main.py:156-160 | The size reported next to a query is that of an index of the measured family. It is the profile index exactly for "JSONB Query" and the tags index exactly for "Array Query"; any other name gets the content index. The GIN dict at main.py:166-170 uses the same mapping. |
| Harness.ReportedSize | main.py:157-159 | The reference definition of one size-dict value, here and at main.py:167-169: the MB size of the query's own index of the family. The CollectSizes, MeasureFamily and RunBenchmark ensures state that each reported size is this value. |
| Harness.OnlyGinTimesCanMiss | main.py:174-178 | When both size maps hold all three query names, the only lookup of the merge that can miss is `gin_metrics[q]`. |
| Harness.PickPrefs | main.py:37-42 | The theme is "dark" or "light" and the language is "en" or "fr". |
| Harness.PickTags | main.py:55 | Five tags, each from the fixed eight-word list. |
| Harness.UserBatch | main.py:34-45 | A batch has batch_size rows, and row j is `user_{i+j}` with well-formed preferences. |
| Harness.ArticleBatch | main.py:54-57 | A batch has batch_size rows, and row j is `Article {i+j}` with five listed tags. |
| Harness.DocumentBatch | main.py:65-66 | A batch has batch_size rows, each the fixed sentence and a 128-bit number. |
| Harness.ScanPlan | main.py:117-120 | The line loop for one query fails exactly when the scan fails, with its error. Otherwise the results map becomes the old map with the scan's value stored under the query's name. |
| Harness.Database.constructor | main.py:11-15 | A session starts from given tables and indexes, with no commits. |
| Harness.Database.RecreateTables | main.py:20-28 | All three tables are empty and no benchmark index remains, after two commits. |
| Harness.Database.InsertUsers | main.py:31-48 | A zero batch size raises and a negative one inserts nothing. Otherwise it appends ceil(n/b)*b rows numbered from 0, keeps the old rows and commits once per batch. |
| Harness.Database.InsertArticles | main.py:50-60 | The same as InsertUsers, for articles titled `Article {k}` with five tags from the list. |
| Harness.Database.InsertDocuments | main.py:62-69 | The same as InsertUsers, for documents holding the sentence and a 128-bit number. |
| Harness.Database.CreateIndexes | main.py:74-88 | The new index set and commit count are those of AfterCreate. A failed creation changes nothing. |
| Harness.Database.DropIndexes | main.py:90-96 | The new index set is that of AfterDrop, and one more commit is made. |
| Harness.Database.IndexSize | main.py:101-103 | It succeeds exactly for an existing index, and then gives its byte count over 1024*1024. Otherwise it reports the missing relation. |
| Harness.Database.CollectSizes | main.py:156-160 | With the family's indexes in place, the size map has exactly the three query names, each mapped to its own index's size. |
| Harness.Database.RunQueries | main.py:105-121 | The result is the run `Timings` over the three queries for the current index set, whose meaning the Timing lemmas state. |
| Harness.Database.PrepareData | main.py:146-149 | Each table holds exactly 1,000,000 rows, numbered from 0, with no benchmark index. There are 2 + 3*100 more commits: two from recreating the tables and one per batch. |
| Harness.Database.MeasureFamily | main.py:154-161 | It times the queries with exactly the family's indexes in place. On success the sizes are those of the family's own indexes, the indexes are dropped again, and two commits are made. A failing run leaves the family's indexes in place after one commit. The families never coexist. |
| Harness.Database.RunBenchmark | main.py:144-178 | It fills the tables, then measures both families without them ever coexisting. The tables hold their numbered rows. It succeeds exactly when both query runs succeed and every B-tree key has a GIN time. Otherwise the merge fails with a KeyError from the GIN times, naming a B-tree key that has no GIN time. Each record then pairs the B-tree and GIN times with the sizes of that query's own indexes. A failing query run stops the script with that family's indexes still in place. The commit count is stated for each way the run can end. |

## Left out

- Database I/O (connection, cursor, `execute`, `execute_values`, `fetchall`, `commit`) is left out. The store is reduced to the rows, the set of benchmark indexes and a commit count, and its answers are the parameters `explain` and `bytesOf`.
- SQL semantics are not modelled: query results, planner choices, what the indexes speed up, and primary-key indexes. The SQL text is kept only to form the statement passed to `explain`.
- `random.random`, `random.choice` and `random.getrandbits(128)` become nondeterministic choices from their stated domains. The JSON text of a user profile is not modelled, only its `prefs` values.
- Console output, PrettyTable rendering with `:.2f`, and `json.dump` to `metrics.json` are left out. Only the speedup rule of `print_metrics` is kept.
- plotter.py is not part of this model. It only reads the JSON file and draws a chart.
- Python floats are exact reals. IEEE rounding of `float()` and of `/` is not modelled.
- Timing.ParseFloat reads only the plain decimal form (optional sign, digits, at most one point, surrounding ASCII whitespace). Exponents, `inf`, `nan`, underscores, Unicode whitespace and non-ASCII decimal digits (such as Arabic-Indic digits) are reported as NotAFloat, although Python accepts them.
- Strings.Strip, Strings.TrimLeft and Strings.TrimRight treat only ASCII whitespace as blank. Python's `strip()` also removes Unicode whitespace such as U+00A0, so a timing line ending in it is read by Python but gives NotAFloat in the model.
- Harness.Database.RunQueries and Harness.Database.MeasureFamily take the per-line parse as a parameter. Only RunBenchmark fixes it to ParseTimingLine, so their contracts hold for any parse.
- Metrics.MergeMetrics visits the B-tree keys in an arbitrary order rather than dict insertion order. When several keys are missing, which one the KeyError names is therefore not pinned down.
- Harness.Database.InsertUsers, InsertArticles and InsertDocuments take `n` as a natural number. A negative `n` is not modelled.
- Harness.Database.CreateIndexes models a failing CREATE INDEX (an index that already exists) as no change, with ok false. It does not model the uncommitted partial transaction or the exception ending the script.
- The index set holds only the six benchmark indexes. Other indexes in the catalog, such as primary keys, are not modelled.

## Notes on the code

- `line.strip().split(":")[1]` reads only the text between the first and second colon, not everything after the first colon. A timing line with a second colon is read from that field alone.
- A zero GIN time gives a speedup of 0, not an error, because Python treats `0.0` as false.
- Each insert loop builds a full batch on its last iteration too. When the batch size does not divide `n`, up to batch_size-1 extra rows are inserted (see Generation.RowCountBounds).

=== FILE: generation.dfy ===
/** The synthetic data of the benchmark: the three record kinds, the domains
    their random fields are drawn from, the names derived from the running row
    number, and the arithmetic of `for i in range(0, n, batch_size)` with a full
    `batch_size` batch built on every iteration. */
module Generation {
  import opened Strings

  /** The `"prefs"` object inside a user's `profile` document. */
  datatype Prefs = Prefs(theme: string, lang: string)

  /** A row of `users(name, profile)`; the JSON text of the profile is not modelled. */
  datatype User = User(name: string, prefs: Prefs)

  /** A row of `articles(title, tags)`. */
  datatype Article = Article(title: string, tags: seq<string>)

  /** A row of `documents(content)`. */
  datatype Document = Document(content: string)

  const Themes: seq<string> := ["dark", "light"]
  const Languages: seq<string> := ["en", "fr"]
  const TagsList: seq<string> := ["tech", "news", "postgres", "gin", "json", "sql", "backend", "tutorial"]
  const TagsPerArticle: nat := 5
  const DocumentSentence: string := "PostgreSQL GIN indexes are awesome. "
  /** `random.getrandbits(128)` yields a value below 2^128. */
  const RandomBound: nat := 0x1_0000_0000_0000_0000_0000_0000_0000_0000

  /** f"user_{k}": the prefix, then digits that read back as k. */
  function UserName(k: nat): (r: string)
    ensures |r| > 5 && r[..5] == "user_"
    ensures AllDigits(r[5..]) && DigitsValue(r[5..]) == k
  {
    var r := "user_" + Decimal(k);
    assert r[5..] == Decimal(k);
    r
  }

  /** f"Article {k}": the prefix, then digits that read back as k. */
  function ArticleTitle(k: nat): (r: string)
    ensures |r| > 8 && r[..8] == "Article "
    ensures AllDigits(r[8..]) && DigitsValue(r[8..]) == k
  {
    var r := "Article " + Decimal(k);
    assert r[8..] == Decimal(k);
    r
  }

  /** f"PostgreSQL GIN indexes are awesome. {bits}": the sentence, then
      digits that read back as the random number. */
  function DocumentContent(bits: nat): (r: string)
    ensures |r| > |DocumentSentence| && r[..|DocumentSentence|] == DocumentSentence
    ensures AllDigits(r[|DocumentSentence|..]) && DigitsValue(r[|DocumentSentence|..]) == bits
  {
    var r := DocumentSentence + Decimal(bits);
    assert r[|DocumentSentence|..] == Decimal(bits);
    r
  }

  predicate WellFormedUser(u: User) {
    u.prefs.theme in Themes && u.prefs.lang in Languages
  }

  predicate WellFormedArticle(a: Article) {
    |a.tags| == TagsPerArticle && forall t :: t in a.tags ==> t in TagsList
  }

  /** The fixed sentence followed by the decimal digits of a 128-bit number. */
  predicate WellFormedDocument(d: Document) {
    var n := |DocumentSentence|;
    && |d.content| > n
    && d.content[..n] == DocumentSentence
    && AllDigits(d.content[n..])
    && DigitsValue(d.content[n..]) < RandomBound
  }

  /** Every document text built from a 128-bit number is the fixed sentence
      followed by that number's digits. */
  lemma {:induction false} DocumentContentWellFormed(bits: nat)
    requires bits < RandomBound
    ensures WellFormedDocument(Document(DocumentContent(bits)))
  {
    var c := DocumentContent(bits);
    assert c[..|DocumentSentence|] == DocumentSentence;
    assert c[|DocumentSentence|..] == Decimal(bits);
  }

  /** Distinct row numbers give distinct user names. */
  lemma {:induction false} UserNamesDistinct(a: nat, b: nat)
    ensures UserName(a) == UserName(b) <==> a == b
  {
    if UserName(a) == UserName(b) {
      assert UserName(a)[5..] == Decimal(a);
      assert UserName(b)[5..] == Decimal(b);
    }
  }

  /** Distinct row numbers give distinct article titles. */
  lemma {:induction false} ArticleTitlesDistinct(a: nat, b: nat)
    ensures ArticleTitle(a) == ArticleTitle(b) <==> a == b
  {
    if ArticleTitle(a) == ArticleTitle(b) {
      assert ArticleTitle(a)[8..] == Decimal(a);
      assert ArticleTitle(b)[8..] == Decimal(b);
    }
  }

  /** Row k of the users table: named user_k, with preferences from the domains. */
  predicate UserRow(u: User, k: nat) {
    u.name == UserName(k) && WellFormedUser(u)
  }

  /** Row k of the articles table: titled Article k, with five listed tags. */
  predicate ArticleRow(a: Article, k: nat) {
    a.title == ArticleTitle(k) && WellFormedArticle(a)
  }

  /** Row k of the documents table: the sentence and a 128-bit number. */
  predicate DocumentRow(d: Document, k: nat) {
    WellFormedDocument(d)
  }

  /** Every row has the shape of its running number, counted from `first`. */
  predicate Numbered<T>(rows: seq<T>, first: nat, shape: (T, nat) -> bool) {
    forall k :: 0 <= k < |rows| ==> shape(rows[k], first + k)
  }

  /** Numbered runs that follow each other make one numbered run. */
  lemma NumberedAppend<T>(a: seq<T>, b: seq<T>, first: nat, shape: (T, nat) -> bool)
    requires Numbered(a, first, shape) && Numbered(b, first + |a|, shape)
    ensures Numbered(a + b, first, shape)
  {
    forall k | 0 <= k < |a + b| ensures shape((a + b)[k], first + k) {
      if k >= |a| {
        assert (a + b)[k] == b[k - |a|];
        assert shape(b[k - |a|], first + |a| + (k - |a|));
      }
    }
  }

  /** Appending a batch to the table extends the rows appended so far. */
  lemma AppendBatch<T>(table: seq<T>, added: seq<T>, batch: seq<T>)
    ensures table + added + batch == table + (added + batch)
    ensures (table + (added + batch))[|table|..] == added + batch
  {
  }

  /** The generated user names run over 0, 1, 2, ... without a repeat. */
  lemma UserNamesUnique(rows: seq<User>)
    requires Numbered(rows, 0, UserRow)
    ensures forall i, j :: 0 <= i < |rows| && 0 <= j < |rows| ==> (rows[i].name == rows[j].name <==> i == j)
  {
    forall i, j | 0 <= i < |rows| && 0 <= j < |rows|
      ensures rows[i].name == rows[j].name <==> i == j
    {
      assert UserRow(rows[i], 0 + i) && UserRow(rows[j], 0 + j);
      UserNamesDistinct(i, j);
    }
  }

  /** The generated article titles run over 0, 1, 2, ... without a repeat. */
  lemma ArticleTitlesUnique(rows: seq<Article>)
    requires Numbered(rows, 0, ArticleRow)
    ensures forall i, j :: 0 <= i < |rows| && 0 <= j < |rows| ==> (rows[i].title == rows[j].title <==> i == j)
  {
    forall i, j | 0 <= i < |rows| && 0 <= j < |rows|
      ensures rows[i].title == rows[j].title <==> i == j
    {
      assert ArticleRow(rows[i], 0 + i) && ArticleRow(rows[j], 0 + j);
      ArticleTitlesDistinct(i, j);
    }
  }

  /** The number of iterations of `range(0, n, batchSize)`, for `n >= 0`
      (a zero step raises before the loop and is not covered here). */
  function BatchCount(n: nat, batchSize: int): (c: nat)
    requires batchSize != 0
    ensures batchSize < 0 ==> c == 0
    ensures batchSize > 0 ==> c * batchSize >= n && c * batchSize < n + batchSize
  {
    if batchSize < 0 then 0
    else
      var c := (n + batchSize - 1) / batchSize;
      assert n + batchSize - 1 == c * batchSize + (n + batchSize - 1) % batchSize;
      c
  }

  /** Rows generated: one full batch of `batchSize` rows per iteration. */
  function RowCount(n: nat, batchSize: int): nat
    requires batchSize != 0
  {
    if batchSize < 0 then 0 else BatchCount(n, batchSize) * batchSize
  }

  /** One more batch advances the row index by one batch size. */
  lemma NextBatch(batches: nat, batchSize: int)
    ensures (batches + 1) * batchSize == batches * batchSize + batchSize
  {
  }

  /** Multiplying by a non-negative number keeps the order. */
  lemma MulMonotone(a: int, a2: int, k: int)
    requires a <= a2 && k >= 0
    ensures a * k <= a2 * k
  {
    assert a2 * k - a * k == (a2 - a) * k;
  }

  /** The only multiple of b strictly between -b and b is 0. */
  lemma SmallMultipleIsZero(k: int, b: int)
    requires b > 0 && -b < k * b < b
    ensures k == 0
  {
    if k >= 1 {
      MulMonotone(1, k, b);
      assert false;
    } else if k <= -1 {
      MulMonotone(k, -1, b);
      assert false;
    }
  }

  /** The two bounds of `BatchCount` pin it down: it is the ceiling of n / batchSize. */
  lemma BatchCountUnique(n: nat, batchSize: int, c: nat)
    requires batchSize > 0
    requires c * batchSize >= n && c * batchSize < n + batchSize
    ensures c == BatchCount(n, batchSize)
  {
    var d := BatchCount(n, batchSize);
    assert (c - d) * batchSize == c * batchSize - d * batchSize;
    SmallMultipleIsZero(c - d, batchSize);
  }

  /** A multiple of b leaves no remainder. */
  lemma MultipleDivides(c: nat, b: int)
    requires b > 0
    ensures (c * b) % b == 0
  {
    var q, r := (c * b) / b, (c * b) % b;
    assert c * b == q * b + r;
    assert (c - q) * b == r;
    SmallMultipleIsZero(c - q, b);
  }

  /** The generator never produces fewer than n rows, over-produces by less
      than one batch, and produces exactly n rows iff batchSize divides n. */
  lemma {:induction false} RowCountBounds(n: nat, batchSize: int)
    requires batchSize > 0
    ensures n <= RowCount(n, batchSize) < n + batchSize
    ensures RowCount(n, batchSize) == n <==> n % batchSize == 0
  {
    var c := BatchCount(n, batchSize);
    if n % batchSize == 0 {
      var q := n / batchSize;
      assert n == q * batchSize;
      BatchCountUnique(n, batchSize, q);
    }
    if c * batchSize == n {
      MultipleDivides(c, batchSize);
    }
  }
}

=== FILE: harness.dfy ===
/** The benchmark script against one database session: the three tables and
    their rows, the benchmark indexes that exist, and the number of committed
    transactions. The store's answers to EXPLAIN ANALYZE and to
    pg_total_relation_size are parameters (`explain`, `bytesOf`); the random
    choices of the generators are choices from the stated domains. The query
    loop is stated for any per-line parse, and the main sequence runs it with
    the script's own, `ParseTimingLine`. */
module Harness {
  import opened Outcomes
  import opened Strings
  import opened Generation
  import opened Indexes
  import opened Timing
  import opened Metrics

  /** The row count and batch size the main script passes to every insert. */
  const Rows: nat := 1000000
  const BatchSize: nat := 10000

  /** The commits of step 1: two for recreating the tables, then one per
      batch for each of the three tables. */
  const PrepareCommits: nat := 2 + 3 * BatchCount(Rows, BatchSize)

  /** Why the main script stops early: a plan line `float` cannot read (or
      with no colon), or a KeyError while merging the maps. */
  datatype Failure = QueryFailed(timing: TimingError) | MergeFailed(missing: KeyError)

  /** The error pg_total_relation_size raises for a relation that does not exist. */
  datatype SizeError = NoSuchRelation(name: string)

  /** The index whose size is reported next to each query's time. */
  function QueryIndex(f: Family, queryName: string): (i: Index)
    ensures i in FamilyIndexes(f)
    ensures i.column == Profile <==> queryName == "JSONB Query"
    ensures i.column == Tags <==> queryName == "Array Query"
  {
    if queryName == "JSONB Query" then Index(Profile, f)
    else if queryName == "Array Query" then Index(Tags, f)
    else Index(Content, f)
  }

  /** The size in megabytes reported for a query under family f. */
  function ReportedSize(f: Family, bytesOf: string -> nat, queryName: string): real {
    Megabytes(bytesOf(IndexName(QueryIndex(f, queryName))))
  }

  /** `"dark" if random.random() < 0.5 else "light"` and the same for the language. */
  method PickPrefs() returns (p: Prefs)
    ensures p.theme in Themes && p.lang in Languages
  {
    var x: real :| 0.0 <= x < 1.0;
    var y: real :| 0.0 <= y < 1.0;
    p := Prefs(if x < 0.5 then "dark" else "light", if y < 0.5 then "en" else "fr");
  }

  /** `[random.choice(tags_list) for _ in range(5)]`. */
  method PickTags() returns (tags: seq<string>)
    ensures |tags| == TagsPerArticle
    ensures forall t :: t in tags ==> t in TagsList
  {
    tags := [];
    var k := 0;
    while k < TagsPerArticle
      invariant 0 <= k <= TagsPerArticle && |tags| == k
      invariant forall t :: t in tags ==> t in TagsList
    {
      var choice :| 0 <= choice < |TagsList|;
      tags := tags + [TagsList[choice]];
      k := k + 1;
    }
  }

  /** The batch of `insert_users` starting at row `first`. */
  method UserBatch(first: nat, size: nat) returns (batch: seq<User>)
    ensures |batch| == size && Numbered(batch, first, UserRow)
  {
    batch := [];
    var j := 0;
    while j < size
      invariant 0 <= j <= size && |batch| == j && Numbered(batch, first, UserRow)
    {
      var prefs := PickPrefs();
      var u := User(UserName(first + j), prefs);
      assert UserRow(u, first + |batch|);
      NumberedAppend(batch, [u], first, UserRow);
      batch := batch + [u];
      j := j + 1;
    }
  }

  /** The batch of `insert_articles` starting at row `first`. */
  method ArticleBatch(first: nat, size: nat) returns (batch: seq<Article>)
    ensures |batch| == size && Numbered(batch, first, ArticleRow)
  {
    batch := [];
    var j := 0;
    while j < size
      invariant 0 <= j <= size && |batch| == j && Numbered(batch, first, ArticleRow)
    {
      var tags := PickTags();
      var a := Article(ArticleTitle(first + j), tags);
      assert ArticleRow(a, first + |batch|);
      NumberedAppend(batch, [a], first, ArticleRow);
      batch := batch + [a];
      j := j + 1;
    }
  }

  /** The batch of `insert_documents`. */
  method DocumentBatch(first: nat, size: nat) returns (batch: seq<Document>)
    ensures |batch| == size && Numbered(batch, first, DocumentRow)
  {
    batch := [];
    var j := 0;
    while j < size
      invariant 0 <= j <= size && |batch| == j && Numbered(batch, first, DocumentRow)
    {
      var bits :| 0 <= bits < RandomBound;
      DocumentContentWellFormed(bits);
      var d := Document(DocumentContent(bits));
      assert DocumentRow(d, first + |batch|);
      NumberedAppend(batch, [d], first, DocumentRow);
      batch := batch + [d];
      j := j + 1;
    }
  }

  /** One iteration of the line loop of `run_queries` keeps its invariant:
      what is left to scan, started from what is stored, gives the result of
      scanning the whole plan from the entry the query started with. */
  lemma ScanAdvance(lines: seq<string>, k: nat, parse: LineParser, name: string,
                    before: map<string, real>, results: map<string, real>)
    requires k < |lines|
    requires ScanLines(lines, parse, Get(before, name)) == ScanLines(lines[k..], parse, Get(results, name))
    requires results == Put(before, name, Get(results, name))
    ensures Contains(lines[k], Marker) && parse(lines[k]).Err? ==>
      ScanLines(lines, parse, Get(before, name)) == Err(parse(lines[k]).error)
    ensures !Contains(lines[k], Marker) || parse(lines[k]).Ok? ==>
      var next := if Contains(lines[k], Marker) then results[name := parse(lines[k]).value] else results;
      && ScanLines(lines, parse, Get(before, name)) == ScanLines(lines[k + 1..], parse, Get(next, name))
      && next == Put(before, name, Get(next, name))
  {
    var stored := Get(results, name);
    ScanStep(lines, k, parse, stored);
    if Contains(lines[k], Marker) && parse(lines[k]).Ok? {
      var next := results[name := parse(lines[k]).value];
      assert Get(next, name) == Some(parse(lines[k]).value);
      assert next == before[name := parse(lines[k]).value];
    }
  }

  /** The line loop of `run_queries` for one query: every line holding
      "Execution Time" is parsed and stored under `name`, the last one
      winning; a line that does not parse ends the run with its error. The
      result is what scanning the plan from the entry already stored gives. */
  method ScanPlan(lines: seq<string>, parse: LineParser, name: string, before: map<string, real>)
    returns (r: Result<map<string, real>, TimingError>)
    ensures var s := ScanLines(lines, parse, Get(before, name));
      && (r.Err? <==> s.Err?)
      && (r.Err? ==> r.error == s.error)
      && (r.Ok? ==> r.value == Put(before, name, s.value))
  {
    var results := before;
    var k := 0;
    while k < |lines|
      invariant 0 <= k <= |lines|
      invariant ScanLines(lines, parse, Get(before, name)) == ScanLines(lines[k..], parse, Get(results, name))
      invariant results == Put(before, name, Get(results, name))
    {
      ScanAdvance(lines, k, parse, name, before, results);
      if Contains(lines[k], Marker) {
        var t := parse(lines[k]);
        if t.Err? {
          return Err(t.error);
        }
        results := results[name := t.value];
      }
      k := k + 1;
    }
    assert lines[k..] == [];
    return Ok(results);
  }

  /** One iteration of the query loop of `run_queries` keeps its invariant. */
  lemma QueryAdvance(qs: seq<Query>, i: nat, live: set<Index>, explain: (set<Index>, string) -> seq<string>,
                     parse: LineParser, before: map<string, real>, results: map<string, real>)
    requires i < |qs|
    requires var s := ScanLines(QueryLines(qs[i], live, explain), parse, Get(before, qs[i].name));
      s.Ok? && results == Put(before, qs[i].name, s.value)
    ensures Timings(qs[i..], live, explain, parse, before) == Timings(qs[i + 1..], live, explain, parse, results)
  {
    TimingsStep(qs, i, live, explain, parse, before);
  }

  /** A failing line ends the query loop of `run_queries` with its error. */
  lemma QueryFails(qs: seq<Query>, i: nat, live: set<Index>, explain: (set<Index>, string) -> seq<string>,
                   parse: LineParser, before: map<string, real>, e: TimingError)
    requires i < |qs|
    requires ScanLines(QueryLines(qs[i], live, explain), parse, Get(before, qs[i].name)) == Err(e)
    ensures Timings(qs[i..], live, explain, parse, before) == Err(e)
  {
    TimingsStep(qs, i, live, explain, parse, before);
  }

  /** With both size maps holding all three query names, the only lookup of
      the merge that can miss is that of the GIN times. */
  lemma OnlyGinTimesCanMiss(btreeTimes: map<string, real>, btreeSizes: map<string, real>,
                            ginTimes: map<string, real>, ginSizes: map<string, real>, e: KeyError)
    requires btreeTimes.Keys <= QueryNames && btreeSizes.Keys == QueryNames && ginSizes.Keys == QueryNames
    requires e.key in btreeTimes
    requires e.source == BtreeSizes <==> e.key !in btreeSizes
    requires e.source == GinTimes <==> e.key in btreeSizes && e.key !in ginTimes
    requires e.source == GinSizes <==> e.key in btreeSizes && e.key in ginTimes && e.key !in ginSizes
    ensures e.source == GinTimes && e.key !in ginTimes
  {
  }

  /** The database session. */
  class Database {
    var users: seq<User>
    var articles: seq<Article>
    var documents: seq<Document>
    /** The benchmark indexes that exist. */
    var indexes: set<Index>
    /** Committed transactions. */
    var commits: nat
    /** The index set after each committed change, the current one last. */
    ghost var history: seq<set<Index>>

    ghost predicate Valid()
      reads this
    {
      |history| > 0 && history[|history| - 1] == indexes
    }

    constructor(users0: seq<User>, articles0: seq<Article>, documents0: seq<Document>, live: set<Index>)
      ensures Valid()
      ensures users == users0 && articles == articles0 && documents == documents0
      ensures indexes == live && commits == 0 && history == [live]
    {
      users, articles, documents := users0, articles0, documents0;
      indexes, commits := live, 0;
      history := [live];
    }

    /** `recreate_tables`: drop the three tables (and with them their
        indexes), commit, create them empty, commit. */
    method RecreateTables()
      modifies this
      ensures Valid()
      ensures users == [] && articles == [] && documents == []
      ensures indexes == {}
      ensures commits == old(commits) + 2
      ensures history == old(history) + [{}]
    {
      users, articles, documents := [], [], [];
      indexes := {};
      commits := commits + 1;
      commits := commits + 1;
      history := history + [{}];
    }

    /** `insert_users(n, batch_size)`: for each i in range(0, n, batch_size)
        one batch of batch_size users named user_{i+j}, inserted and committed.
        A zero batch size raises before any row is written (`ok` is false). */
    method InsertUsers(n: nat, batchSize: int) returns (ok: bool)
      modifies this`users, this`commits
      ensures ok <==> batchSize != 0
      ensures batchSize <= 0 ==> users == old(users) && commits == old(commits)
      ensures batchSize > 0 ==>
        && |users| == |old(users)| + RowCount(n, batchSize)
        && users[..|old(users)|] == old(users)
        && Numbered(users[|old(users)|..], 0, UserRow)
        && commits == old(commits) + BatchCount(n, batchSize)
    {
      if batchSize == 0 {
        return false;
      }
      ok := true;
      if batchSize < 0 {
        return;
      }
      ghost var added: seq<User> := [];
      var i := 0;
      ghost var batches: nat := 0;
      while i < n
        invariant i == batches * batchSize && i < n + batchSize
        invariant users == old(users) + added && |added| == i && Numbered(added, 0, UserRow)
        invariant commits == old(commits) + batches
      {
        var batch := UserBatch(i, batchSize);
        NumberedAppend(added, batch, 0, UserRow);
        AppendBatch(old(users), added, batch);
        NextBatch(batches, batchSize);
        users := users + batch;
        added := added + batch;
        commits := commits + 1;
        i := i + batchSize;
        batches := batches + 1;
      }
      AppendBatch(old(users), [], added);
      BatchCountUnique(n, batchSize, batches);
    }

    /** `insert_articles(n, batch_size)`: rows titled Article {i+j}, each with
        five tags drawn from the fixed list. */
    method InsertArticles(n: nat, batchSize: int) returns (ok: bool)
      modifies this`articles, this`commits
      ensures ok <==> batchSize != 0
      ensures batchSize <= 0 ==> articles == old(articles) && commits == old(commits)
      ensures batchSize > 0 ==>
        && |articles| == |old(articles)| + RowCount(n, batchSize)
        && articles[..|old(articles)|] == old(articles)
        && Numbered(articles[|old(articles)|..], 0, ArticleRow)
        && commits == old(commits) + BatchCount(n, batchSize)
    {
      if batchSize == 0 {
        return false;
      }
      ok := true;
      if batchSize < 0 {
        return;
      }
      ghost var added: seq<Article> := [];
      var i := 0;
      ghost var batches: nat := 0;
      while i < n
        invariant i == batches * batchSize && i < n + batchSize
        invariant articles == old(articles) + added && |added| == i && Numbered(added, 0, ArticleRow)
        invariant commits == old(commits) + batches
      {
        var batch := ArticleBatch(i, batchSize);
        NumberedAppend(added, batch, 0, ArticleRow);
        AppendBatch(old(articles), added, batch);
        NextBatch(batches, batchSize);
        articles := articles + batch;
        added := added + batch;
        commits := commits + 1;
        i := i + batchSize;
        batches := batches + 1;
      }
      AppendBatch(old(articles), [], added);
      BatchCountUnique(n, batchSize, batches);
    }

    /** `insert_documents(n, batch_size)`: rows holding the fixed sentence
        followed by a 128-bit random number. */
    method InsertDocuments(n: nat, batchSize: int) returns (ok: bool)
      modifies this`documents, this`commits
      ensures ok <==> batchSize != 0
      ensures batchSize <= 0 ==> documents == old(documents) && commits == old(commits)
      ensures batchSize > 0 ==>
        && |documents| == |old(documents)| + RowCount(n, batchSize)
        && documents[..|old(documents)|] == old(documents)
        && Numbered(documents[|old(documents)|..], 0, DocumentRow)
        && commits == old(commits) + BatchCount(n, batchSize)
    {
      if batchSize == 0 {
        return false;
      }
      ok := true;
      if batchSize < 0 {
        return;
      }
      ghost var added: seq<Document> := [];
      var i := 0;
      ghost var batches: nat := 0;
      while i < n
        invariant i == batches * batchSize && i < n + batchSize
        invariant documents == old(documents) + added && |added| == i && Numbered(added, 0, DocumentRow)
        invariant commits == old(commits) + batches
      {
        var batch := DocumentBatch(i, batchSize);
        NumberedAppend(added, batch, 0, DocumentRow);
        AppendBatch(old(documents), added, batch);
        NextBatch(batches, batchSize);
        documents := documents + batch;
        added := added + batch;
        commits := commits + 1;
        i := i + batchSize;
        batches := batches + 1;
      }
      AppendBatch(old(documents), [], added);
      BatchCountUnique(n, batchSize, batches);
    }

    /** `create_btree_indexes` / `create_gin_indexes`: three CREATE INDEX
        statements, then a commit. A name that already exists makes its
        statement fail; the transaction is then never committed and the index
        set stays as it was. */
    method CreateIndexes(f: Family) returns (ok: bool)
      requires Valid()
      modifies this`indexes, this`commits, this`history
      ensures Valid()
      ensures ok <==> AfterCreate(old(indexes), f).Some?
      ensures ok ==> indexes == AfterCreate(old(indexes), f).value && commits == old(commits) + 1
      ensures ok ==> history == old(history) + [indexes]
      ensures !ok ==> indexes == old(indexes) && commits == old(commits) && history == old(history)
    {
      var order := CreationOrder(f);
      var pending := indexes;
      var k := 0;
      while k < |order|
        invariant 0 <= k <= |order|
        invariant pending == indexes + set j | 0 <= j < k :: order[j]
        invariant forall j :: 0 <= j < k ==> order[j] !in indexes
      {
        assert order[k].family == f;
        if order[k] in pending {
          assert order[k] in indexes && order[k] in FamilyIndexes(f);
          return false;
        }
        pending := pending + {order[k]};
        k := k + 1;
      }
      assert FamilyIndexes(f) == set j | 0 <= j < |order| :: order[j] by {
        assert FamilyIndexes(f) == {order[0], order[1], order[2]};
      }
      indexes := pending;
      commits := commits + 1;
      history := history + [indexes];
      ok := true;
    }

    /** `drop_indexes(index_type)`: DROP INDEX IF EXISTS on the family's three
        names, then a commit. */
    method DropIndexes(indexType: string)
      requires Valid()
      modifies this`indexes, this`commits, this`history
      ensures Valid()
      ensures indexes == AfterDrop(old(indexes), indexType)
      ensures commits == old(commits) + 1
      ensures history == old(history) + [indexes]
    {
      indexes := indexes - FamilyIndexes(DropTarget(indexType));
      commits := commits + 1;
      history := history + [indexes];
    }

    /** `get_index_size(index_name)`: the relation's size in bytes divided by
        1024*1024; a name that is not an existing index is an error. */
    method IndexSize(index: Index, bytesOf: string -> nat) returns (r: Result<real, SizeError>)
      ensures r.Ok? <==> index in indexes
      ensures r.Ok? ==> r.value * BytesPerMegabyte as real == bytesOf(IndexName(index)) as real
      ensures r.Err? ==> r.error == NoSuchRelation(IndexName(index))
    {
      if index !in indexes {
        return Err(NoSuchRelation(IndexName(index)));
      }
      return Ok(Megabytes(bytesOf(IndexName(index))));
    }

    /** The `metrics_*_size` dict of family f: the size of each query's index. */
    method CollectSizes(f: Family, bytesOf: string -> nat) returns (sizes: map<string, real>)
      requires FamilyIndexes(f) <= indexes
      ensures sizes.Keys == QueryNames
      ensures forall q :: q in sizes ==> sizes[q] == ReportedSize(f, bytesOf, q)
    {
      var order := CreationOrder(f);
      var profile := IndexSize(order[0], bytesOf);
      var tags := IndexSize(order[1], bytesOf);
      var content := IndexSize(order[2], bytesOf);
      assert profile.Ok? && tags.Ok? && content.Ok?;
      sizes := map["JSONB Query" := profile.value, "Array Query" := tags.value, "Full-Text Query" := content.value];
    }

    /** `run_queries`: for each query in order, run EXPLAIN ANALYZE, split the
        joined rows into lines, and store the value `parse` reads from every
        line holding "Execution Time" under the query's name. The script's
        parse is `ParseTimingLine`; the main sequence passes it. */
    method RunQueries(explain: (set<Index>, string) -> seq<string>, parse: LineParser) returns (r: Result<map<string, real>, TimingError>)
      ensures r == Timings(Queries, indexes, explain, parse, map[])
    {
      var results: map<string, real> := map[];
      var i := 0;
      while i < |Queries|
        invariant 0 <= i <= |Queries|
        invariant Timings(Queries, indexes, explain, parse, map[])
               == Timings(Queries[i..], indexes, explain, parse, results)
      {
        var q := Queries[i];
        var scanned := ScanPlan(QueryLines(q, indexes, explain), parse, q.name, results);
        if scanned.Err? {
          QueryFails(Queries, i, indexes, explain, parse, results, scanned.error);
          return Err(scanned.error);
        }
        QueryAdvance(Queries, i, indexes, explain, parse, results, scanned.value);
        results := scanned.value;
        i := i + 1;
      }
      assert Queries[i..] == [];
      return Ok(results);
    }

    /** The states recorded since `start` stay exclusive when the states
        recorded before and after `before` was the history are. */
    lemma ExclusiveSince(start: nat, before: seq<set<Index>>)
      requires start <= |before| <= |history| && history[..|before|] == before
      requires AllExclusive(before[start..]) && AllExclusive(history[|before|..])
      ensures AllExclusive(history[start..])
    {
      AllExclusiveAppend(before[start..], history[|before|..]);
      assert history[start..] == before[start..] + history[|before|..];
    }

    /** Step 1 of the main script: recreate the tables and fill each with
        `Rows` rows in batches of `BatchSize`. */
    method PrepareData()
      requires Valid()
      modifies this
      ensures Valid()
      ensures |users| == Rows && |articles| == Rows && |documents| == Rows
      ensures Numbered(users, 0, UserRow) && Numbered(articles, 0, ArticleRow) && Numbered(documents, 0, DocumentRow)
      ensures indexes == {} && history == old(history) + [{}]
      ensures commits == old(commits) + PrepareCommits
      ensures AllExclusive(history[|old(history)|..])
    {
      RecreateTables();
      BatchCountUnique(Rows, BatchSize, 100);
      assert RowCount(Rows, BatchSize) == Rows;
      var ok := InsertUsers(Rows, BatchSize);
      assert users[..0] == [] && users[0..] == users;
      ok := InsertArticles(Rows, BatchSize);
      assert articles[..0] == [] && articles[0..] == articles;
      ok := InsertDocuments(Rows, BatchSize);
      assert documents[..0] == [] && documents[0..] == documents;
      assert history[|old(history)|..] == [{}];
      FamilyAloneIsExclusive(BTree);
    }

    /** Steps 2 and 3 of the main script for family f: create its indexes,
        time the queries, read the three index sizes, drop the indexes. A
        failing query run ends the script with the indexes still in place. */
    method MeasureFamily(f: Family, explain: (set<Index>, string) -> seq<string>, parse: LineParser,
                         bytesOf: string -> nat)
      returns (times: Result<map<string, real>, TimingError>, sizes: map<string, real>)
      requires Valid() && indexes == {}
      modifies this`indexes, this`commits, this`history
      ensures Valid()
      ensures times == Timings(Queries, FamilyIndexes(f), explain, parse, map[])
      ensures times.Err? ==> indexes == FamilyIndexes(f) && history == old(history) + [FamilyIndexes(f)]
      ensures times.Err? ==> commits == old(commits) + 1
      ensures times.Ok? ==> indexes == {} && history == old(history) + [FamilyIndexes(f), {}]
      ensures times.Ok? ==> commits == old(commits) + 2
      ensures times.Ok? ==> sizes.Keys == QueryNames
      ensures times.Ok? ==> forall q :: q in sizes ==> sizes[q] == ReportedSize(f, bytesOf, q)
      ensures |old(history)| < |history| && AllExclusive(history[|old(history)|..])
    {
      ghost var h0 := history;
      FamilyAloneIsExclusive(f);
      CreateThenDrop({}, f);
      var ok := CreateIndexes(f);
      assert ok && indexes == FamilyIndexes(f);
      times := RunQueries(explain, parse);
      if times.Err? {
        RecordedOne(h0, FamilyIndexes(f));
        sizes := map[];
      } else {
        sizes := CollectSizes(f, bytesOf);
        DropIndexes(FamilyWord(f));
        assert indexes == {};
        RecordedTwo(h0, FamilyIndexes(f), {});
      }
    }

    /** The main script: fill the tables, measure B-tree then GIN, and merge
        the four maps. Along the way the two families never coexist, every
        size read names an existing index, and a complete run leaves no
        benchmark index behind. */
    method RunBenchmark(explain: (set<Index>, string) -> seq<string>, bytesOf: string -> nat)
      returns (r: Result<map<string, Entry>, Failure>)
      requires Valid()
      modifies this
      ensures Valid()
      ensures |users| == Rows && |articles| == Rows && |documents| == Rows
      ensures Numbered(users, 0, UserRow) && Numbered(articles, 0, ArticleRow) && Numbered(documents, 0, DocumentRow)
      ensures |old(history)| < |history| && AllExclusive(history[|old(history)|..])
      ensures var bt := Timings(Queries, FamilyIndexes(BTree), explain, ParseTimingLine, map[]);
              var gt := Timings(Queries, FamilyIndexes(Gin), explain, ParseTimingLine, map[]);
        && (bt.Err? ==> r == Err(QueryFailed(bt.error)) && indexes == FamilyIndexes(BTree)
                        && commits == old(commits) + PrepareCommits + 1)
        && (bt.Ok? && gt.Err? ==> r == Err(QueryFailed(gt.error)) && indexes == FamilyIndexes(Gin)
                                  && commits == old(commits) + PrepareCommits + 3)
        && (bt.Ok? && gt.Ok? ==> indexes == {} && commits == old(commits) + PrepareCommits + 4)
        && (bt.Ok? && gt.Ok? && !(bt.value.Keys <= gt.value.Keys) ==>
              r.Err? && r.error.MergeFailed? && r.error.missing.source == GinTimes
              && r.error.missing.key in bt.value && r.error.missing.key !in gt.value)
      ensures var bt := Timings(Queries, FamilyIndexes(BTree), explain, ParseTimingLine, map[]);
              var gt := Timings(Queries, FamilyIndexes(Gin), explain, ParseTimingLine, map[]);
        && (r.Ok? <==> bt.Ok? && gt.Ok? && bt.value.Keys <= gt.value.Keys)
        && (r.Ok? ==> r.value.Keys == bt.value.Keys)
        && (r.Ok? ==> forall q :: q in r.value ==>
              r.value[q] == Entry(Measurement(bt.value[q], ReportedSize(BTree, bytesOf, q)),
                                  Measurement(gt.value[q], ReportedSize(Gin, bytesOf, q))))
    {
      ghost var start := |history|;
      PrepareData();
      ghost var prepared := history;
      var btreeTimes, btreeSizes := MeasureFamily(BTree, explain, ParseTimingLine, bytesOf);
      ExclusiveSince(start, prepared);
      if btreeTimes.Err? {
        return Err(QueryFailed(btreeTimes.error));
      }
      ghost var measured := history;
      var ginTimes, ginSizes := MeasureFamily(Gin, explain, ParseTimingLine, bytesOf);
      ExclusiveSince(start, measured);
      if ginTimes.Err? {
        return Err(QueryFailed(ginTimes.error));
      }
      TimingsKeys(FamilyIndexes(BTree), explain, ParseTimingLine);
      var merged := MergeMetrics(btreeTimes.value, btreeSizes, ginTimes.value, ginSizes);
      if merged.Err? {
        OnlyGinTimesCanMiss(btreeTimes.value, btreeSizes, ginTimes.value, ginSizes, merged.error);
        return Err(MergeFailed(merged.error));
      }
      return Ok(merged.value);
    }
  }
}

=== FILE: indexes.dfy ===
/** The six benchmark indexes (one per indexed column and family, named
    `idx_<column>_<family>`) and the set of existing ones that the create and
    drop functions change: creating a family adds its three indexes (refused
    if one already exists, as CREATE INDEX without IF NOT EXISTS is), dropping
    removes its three with DROP INDEX IF EXISTS (absent ones are not an
    error). */
module Indexes {
  import opened Outcomes

  datatype Family = BTree | Gin

  /** The indexed column of each table: users.profile, articles.tags,
      documents.content. */
  datatype Column = Profile | Tags | Content

  /** One of the six benchmark indexes. */
  datatype Index = Index(column: Column, family: Family)

  function ColumnWord(c: Column): string {
    match c
    case Profile => "profile"
    case Tags => "tags"
    case Content => "content"
  }

  /** The family's word: the suffix of its index names, and the argument the
      main script passes to `drop_indexes` for it. */
  function FamilyWord(f: Family): (s: string)
    ensures DropTarget(s) == f
  {
    if f == BTree then "btree" else "gin"
  }

  /** The index's name in the catalog, as in `idx_profile_btree`. */
  function IndexName(i: Index): (s: string)
    ensures |s| == 5 + |ColumnWord(i.column)| + |FamilyWord(i.family)|
  {
    "idx_" + ColumnWord(i.column) + "_" + FamilyWord(i.family)
  }

  /** The six names are distinct, so the catalog can be read by index. */
  lemma IndexNameInjective(i: Index, j: Index)
    ensures IndexName(i) == IndexName(j) <==> i == j
  {
    if IndexName(i) == IndexName(j) {
      var n := IndexName(i);
      var ci := ColumnWord(i.column);
      assert n[4] == ci[0] && n[4] == ColumnWord(j.column)[0];
      assert i.column == j.column;
      assert n[5 + |ci|] == FamilyWord(i.family)[0] && n[5 + |ci|] == FamilyWord(j.family)[0];
    }
  }

  /** The three indexes of a family, in creation order: profile, tags, content.
      Each index of the family appears exactly once. */
  function CreationOrder(f: Family): (s: seq<Index>)
    ensures |s| == 3 && s[0].column == Profile && s[1].column == Tags && s[2].column == Content
    ensures forall x :: x in s <==> x in FamilyIndexes(f)
    ensures forall k, l :: 0 <= k < l < |s| ==> s[k] != s[l]
  {
    [Index(Profile, f), Index(Tags, f), Index(Content, f)]
  }

  /** The indexes of a family: exactly the indexes on its three columns. */
  function FamilyIndexes(f: Family): (s: set<Index>)
    ensures forall x :: x in s <==> x.family == f
  {
    var s := {Index(Profile, f), Index(Tags, f), Index(Content, f)};
    assert forall x: Index :: x.family == f ==> x in s by {
      forall x: Index | x.family == f ensures x in s {
        assert x == Index(x.column, f);
        if !x.column.Profile? && !x.column.Tags? {
          assert x.column == Content;
        }
      }
    }
    s
  }

  /** The family `drop_indexes(index_type)` drops: "btree" names the B-tree
      family and every other argument the GIN family. */
  function DropTarget(indexType: string): (f: Family)
    ensures f == BTree <==> indexType == "btree"
  {
    if indexType == "btree" then BTree else Gin
  }

  /** The index set after creating family f, or None when one of its indexes
      already exists (the statement fails and nothing is committed). */
  function AfterCreate(live: set<Index>, f: Family): (r: Option<set<Index>>)
    ensures r.Some? <==> live !! FamilyIndexes(f)
    ensures r.Some? ==> FamilyIndexes(f) <= r.value
    ensures r.Some? ==> forall x :: x !in FamilyIndexes(f) ==> (x in r.value <==> x in live)
  {
    if live !! FamilyIndexes(f) then Some(live + FamilyIndexes(f)) else None
  }

  /** The index set after `drop_indexes(indexType)`. */
  function AfterDrop(live: set<Index>, indexType: string): (r: set<Index>)
    ensures r !! FamilyIndexes(DropTarget(indexType))
    ensures forall x :: x !in FamilyIndexes(DropTarget(indexType)) ==> (x in r <==> x in live)
  {
    live - FamilyIndexes(DropTarget(indexType))
  }

  /** At most one family has indexes present. */
  predicate Exclusive(live: set<Index>) {
    live !! FamilyIndexes(BTree) || live !! FamilyIndexes(Gin)
  }

  /** Every state of a sequence holds at most one family. */
  predicate AllExclusive(states: seq<set<Index>>) {
    forall j :: 0 <= j < |states| ==> Exclusive(states[j])
  }

  /** Exclusive runs that follow each other make one exclusive run. */
  lemma AllExclusiveAppend(a: seq<set<Index>>, b: seq<set<Index>>)
    requires AllExclusive(a) && AllExclusive(b)
    ensures AllExclusive(a + b)
  {
    forall j | 0 <= j < |a + b| ensures Exclusive((a + b)[j]) {
      if j >= |a| {
        assert (a + b)[j] == b[j - |a|];
      }
    }
  }

  /** Recording one state and then another records the two in order, and
      what was recorded after `h` stays exclusive when both states are. */
  lemma RecordedTwo(h: seq<set<Index>>, a: set<Index>, b: set<Index>)
    requires AllExclusive([a, b])
    ensures h + [a] + [b] == h + [a, b]
    ensures AllExclusive((h + [a, b])[|h|..])
  {
    assert (h + [a, b])[|h|..] == [a, b];
  }

  /** What was recorded after `h` is the one state added. */
  lemma RecordedOne(h: seq<set<Index>>, a: set<Index>)
    requires AllExclusive([a])
    ensures AllExclusive((h + [a])[|h|..])
  {
    assert (h + [a])[|h|..] == [a];
  }

  /** The indexes of distinct families never coincide. */
  lemma FamiliesDisjoint()
    ensures FamilyIndexes(BTree) !! FamilyIndexes(Gin)
  {
  }

  /** A family on its own, and the empty set, are exclusive states. */
  lemma FamilyAloneIsExclusive(f: Family)
    ensures AllExclusive([FamilyIndexes(f)]) && AllExclusive([FamilyIndexes(f), {}]) && AllExclusive([{}])
  {
    FamiliesDisjoint();
    assert Exclusive(FamilyIndexes(f));
  }

  /** Dropping twice is the same as dropping once. */
  lemma DropIdempotent(live: set<Index>, indexType: string)
    ensures AfterDrop(AfterDrop(live, indexType), indexType) == AfterDrop(live, indexType)
  {
  }

  /** Dropping "btree" leaves every GIN index where it was, and the reverse. */
  lemma DropLeavesOtherFamily(live: set<Index>, indexType: string)
    ensures DropTarget(indexType) == BTree ==> AfterDrop(live, indexType) * FamilyIndexes(Gin) == live * FamilyIndexes(Gin)
    ensures DropTarget(indexType) == Gin ==> AfterDrop(live, indexType) * FamilyIndexes(BTree) == live * FamilyIndexes(BTree)
  {
  }

  /** Creating a family on a set without its names and dropping it again
      restores the set. */
  lemma CreateThenDrop(live: set<Index>, f: Family)
    requires live !! FamilyIndexes(f)
    ensures AfterCreate(live, f).Some?
    ensures AfterDrop(AfterCreate(live, f).value, FamilyWord(f)) == live
  {
  }

  /** The benchmark's order create B-tree, drop "btree", create GIN, drop "gin",
      started with no benchmark index, never fails, never holds both families
      and ends where it started. */
  lemma {:induction false} BenchmarkOrderIsSafe(live: set<Index>)
    requires live !! FamilyIndexes(BTree) && live !! FamilyIndexes(Gin)
    ensures var s1 := AfterCreate(live, BTree);
      && s1.Some? && Exclusive(s1.value)
      && var s2 := AfterDrop(s1.value, "btree");
      && Exclusive(s2)
      && var s3 := AfterCreate(s2, Gin);
      && s3.Some? && Exclusive(s3.value)
      && AfterDrop(s3.value, "gin") == live
  {
    FamiliesDisjoint();
    CreateThenDrop(live, BTree);
    CreateThenDrop(live, Gin);
  }
}

=== FILE: metrics.dfy ===
/** The numbers reported per query: index sizes in megabytes, the speedup of
    the GIN run over the B-tree run, and the merge of the four per-query maps
    (B-tree times, B-tree sizes, GIN times, GIN sizes) into one record per
    query. Times and sizes are exact reals. */
module Metrics {
  import opened Outcomes

  const BytesPerMegabyte: nat := 1024 * 1024

  /** `bytes / (1024*1024)`: the size in megabytes. */
  function Megabytes(bytes: nat): (mb: real)
    ensures mb * BytesPerMegabyte as real == bytes as real
    ensures mb >= 0.0
  {
    bytes as real / BytesPerMegabyte as real
  }

  /** A whole number of megabytes is reported as that number. */
  lemma MegabytesOfWholeMegabytes(k: nat)
    ensures Megabytes(k * BytesPerMegabyte) == k as real
  {
    var mb := Megabytes(k * BytesPerMegabyte);
    assert (mb - k as real) * BytesPerMegabyte as real == 0.0;
  }

  /** More bytes never give fewer megabytes. */
  lemma MegabytesMonotone(a: nat, b: nat)
    ensures a <= b <==> Megabytes(a) <= Megabytes(b)
  {
    var d := Megabytes(b) - Megabytes(a);
    assert d * BytesPerMegabyte as real == (b - a) as real;
  }

  /** `btree_time/gin_time if gin_time else 0`: a zero GIN time, which Python
      treats as false, gives 0 instead of a division by zero. */
  function Speedup(btreeTime: real, ginTime: real): (s: real)
    ensures ginTime != 0.0 ==> s * ginTime == btreeTime
    ensures ginTime == 0.0 ==> s == 0.0
    ensures btreeTime >= 0.0 && ginTime >= 0.0 ==> s >= 0.0
  {
    if ginTime != 0.0 then btreeTime / ginTime else 0.0
  }

  /** With positive times, GIN is reported faster (speedup above 1) exactly
      when its time is below the B-tree time, and equally fast exactly when
      the times agree. */
  lemma SpeedupComparesTimes(btreeTime: real, ginTime: real)
    requires ginTime > 0.0
    ensures Speedup(btreeTime, ginTime) > 1.0 <==> btreeTime > ginTime
    ensures Speedup(btreeTime, ginTime) == 1.0 <==> btreeTime == ginTime
  {
    var s := Speedup(btreeTime, ginTime);
    assert (s - 1.0) * ginTime == btreeTime - ginTime;
    SignOfProduct(s - 1.0, ginTime);
  }

  /** A product with a positive factor has the sign of the other factor. */
  lemma SignOfProduct(x: real, g: real)
    requires g > 0.0
    ensures x * g > 0.0 <==> x > 0.0
    ensures x * g == 0.0 <==> x == 0.0
  {
    if x < 0.0 {
      assert (-x) * g > 0.0;
    }
  }

  /** The `{"time": ..., "size": ...}` record of one index family. */
  datatype Measurement = Measurement(time: real, size: real)

  /** The `{"btree": ..., "gin": ...}` record of one query. */
  datatype Entry = Entry(btree: Measurement, gin: Measurement)

  /** The map that raised the KeyError: `btree_metrics[q]` is always present,
      the other three lookups are made in this order. */
  datatype MissingIn = BtreeSizes | GinTimes | GinSizes

  datatype KeyError = KeyError(source: MissingIn, key: string)

  /** Every key of the B-tree times is a key of the other three maps. */
  predicate Complete(btreeTimes: map<string, real>, btreeSizes: map<string, real>,
                     ginTimes: map<string, real>, ginSizes: map<string, real>) {
    btreeTimes.Keys <= btreeSizes.Keys && btreeTimes.Keys <= ginTimes.Keys && btreeTimes.Keys <= ginSizes.Keys
  }

  /** The record built for query q. */
  function EntryOf(q: string, btreeTimes: map<string, real>, btreeSizes: map<string, real>,
                   ginTimes: map<string, real>, ginSizes: map<string, real>): Entry
    requires q in btreeTimes && q in btreeSizes && q in ginTimes && q in ginSizes
  {
    Entry(Measurement(btreeTimes[q], btreeSizes[q]), Measurement(ginTimes[q], ginSizes[q]))
  }

  /** The loop `for q in btree_metrics.keys(): metrics[q] = {...}`. On success
      the result has exactly the keys of the B-tree times and each entry pairs
      the four values stored under its key; the merge fails exactly when some
      such key is missing from another map, and then reports a key of the
      B-tree times together with the first of the three lookups that misses. */
  method MergeMetrics(btreeTimes: map<string, real>, btreeSizes: map<string, real>,
                      ginTimes: map<string, real>, ginSizes: map<string, real>)
    returns (r: Result<map<string, Entry>, KeyError>)
    ensures r.Ok? <==> Complete(btreeTimes, btreeSizes, ginTimes, ginSizes)
    ensures r.Ok? ==> r.value.Keys == btreeTimes.Keys
    ensures r.Ok? ==> forall q :: q in r.value ==>
      r.value[q] == EntryOf(q, btreeTimes, btreeSizes, ginTimes, ginSizes)
    ensures r.Err? ==> var k := r.error.key;
      && k in btreeTimes
      && (r.error.source == BtreeSizes <==> k !in btreeSizes)
      && (r.error.source == GinTimes <==> k in btreeSizes && k !in ginTimes)
      && (r.error.source == GinSizes <==> k in btreeSizes && k in ginTimes && k !in ginSizes)
  {
    var metrics: map<string, Entry> := map[];
    var todo := btreeTimes.Keys;
    while todo != {}
      invariant todo <= btreeTimes.Keys
      invariant metrics.Keys == btreeTimes.Keys - todo
      invariant forall q :: q in metrics ==>
        q in btreeSizes && q in ginTimes && q in ginSizes &&
        metrics[q] == EntryOf(q, btreeTimes, btreeSizes, ginTimes, ginSizes)
      decreases todo
    {
      var q :| q in todo;
      if q !in btreeSizes {
        return Err(KeyError(BtreeSizes, q));
      }
      if q !in ginTimes {
        return Err(KeyError(GinTimes, q));
      }
      if q !in ginSizes {
        return Err(KeyError(GinSizes, q));
      }
      metrics := metrics[q := Entry(Measurement(btreeTimes[q], btreeSizes[q]), Measurement(ginTimes[q], ginSizes[q]))];
      todo := todo - {q};
    }
    return Ok(metrics);
  }
}

=== FILE: outcomes.dfy ===
/** Failure-carrying wrappers used throughout the model: a missing value and an
    operation that either produces a value or raises an error. */
module Outcomes {

  datatype Option<+T> = None | Some(value: T)

  datatype Result<+T, +E> = Ok(value: T) | Err(error: E)
}

=== FILE: strings.dfy ===
/** The handful of Python string operations the harness relies on, over
    `string` (= `seq<char>`): `str.isspace`/`str.strip`, `str.split(sep)`,
    `sep.join(parts)`, `str.replace(pat, "")`, the `in` substring test and the
    decimal rendering of a non-negative `int` in an f-string. */
module Strings {

  /** Python's `str.isspace` on ASCII: space, \t \n \v \f \r and the
      separators \x1c-\x1f. */
  predicate IsSpace(c: char) {
    var k := c as int;
    k == 32 || 9 <= k <= 13 || 28 <= k <= 31
  }

  predicate IsDigit(c: char) {
    '0' <= c <= '9'
  }

  predicate AllDigits(s: string) {
    forall i :: 0 <= i < |s| ==> IsDigit(s[i])
  }

  function DigitValue(c: char): nat
    requires IsDigit(c)
  {
    c as int - '0' as int
  }

  function DigitChar(d: nat): (c: char)
    requires d < 10
    ensures IsDigit(c) && DigitValue(c) == d
  {
    ('0' as int + d) as char
  }

  /** The value of a string of decimal digits (most significant first). */
  function DigitsValue(s: string): nat
    requires AllDigits(s)
  {
    if s == [] then 0 else DigitsValue(s[..|s| - 1]) * 10 + DigitValue(s[|s| - 1])
  }

  /** x times ten to the n, by n multiplications by ten. */
  function Scale(x: real, n: nat): real {
    if n == 0 then x else 10.0 * Scale(x, n - 1)
  }

  lemma {:induction false} ScaleAdds(x: real, y: real, n: nat)
    ensures Scale(x + y, n) == Scale(x, n) + Scale(y, n)
  {
    if n > 0 {
      ScaleAdds(x, y, n - 1);
    }
  }

  lemma {:induction false} ScaleTenth(x: real, n: nat)
    ensures Scale(x / 10.0, n + 1) == Scale(x, n)
  {
    if n > 0 {
      ScaleTenth(x, n - 1);
    }
  }

  /** Reading the digits from the front: the first digit is worth its value
      times ten to the number of digits after it. */
  lemma {:induction false} DigitsValueFirst(s: string)
    requires AllDigits(s) && s != []
    ensures DigitsValue(s) as real == Scale(DigitValue(s[0]) as real, |s| - 1) + DigitsValue(s[1..]) as real
    decreases |s|
  {
    if |s| > 1 {
      var init := s[..|s| - 1];
      DigitsValueFirst(init);
      assert init[0] == s[0];
      assert init[1..] == s[1..][..|s[1..]| - 1];
      assert s[1..][|s[1..]| - 1] == s[|s| - 1];
    } else {
      assert s[1..] == [];
    }
  }

  /** A first digit in front of a fraction worth its remaining digits over
      their power of ten keeps both the bounds and that value. */
  lemma PrependDigit(s: string, t: real)
    requires AllDigits(s) && s != []
    requires 0.0 <= t < 1.0 && Scale(t, |s| - 1) == DigitsValue(s[1..]) as real
    ensures var v := (DigitValue(s[0]) as real + t) / 10.0;
      0.0 <= v < 1.0 && Scale(v, |s|) == DigitsValue(s) as real
  {
    var d := DigitValue(s[0]) as real;
    DigitsValueFirst(s);
    ScaleTenth(d + t, |s| - 1);
    ScaleAdds(d, t, |s| - 1);
  }

  /** The value of the digits after a decimal point, 0.d1d2d3...: times ten
      to the number of digits it is the digits read as an integer. */
  function FractionValue(s: string): (v: real)
    requires AllDigits(s)
    ensures 0.0 <= v < 1.0
    ensures Scale(v, |s|) == DigitsValue(s) as real
    decreases |s|
  {
    if s == [] then 0.0
    else
      var t := FractionValue(s[1..]);
      PrependDigit(s, t);
      (DigitValue(s[0]) as real + t) / 10.0
  }

  /** f"{n}" for a non-negative integer: canonical decimal, no leading zero. */
  function Decimal(n: nat): (s: string)
    ensures |s| >= 1 && AllDigits(s)
    ensures DigitsValue(s) == n
    ensures s[0] == '0' ==> n == 0 && |s| == 1
  {
    if n < 10 then [DigitChar(n)]
    else
      var prefix := Decimal(n / 10);
      var s := prefix + [DigitChar(n % 10)];
      assert s[..|s| - 1] == prefix;
      s
  }

  /** Decimal rendering is injective: distinct integers print differently. */
  lemma DecimalInjective(a: nat, b: nat)
    ensures Decimal(a) == Decimal(b) <==> a == b
  {
  }

  /** Leading whitespace removed (the first half of `str.strip`). */
  function TrimLeft(s: string): (r: string)
    ensures |r| <= |s| && r == s[|s| - |r|..]
    ensures r != [] ==> !IsSpace(r[0])
    ensures forall i :: 0 <= i < |s| - |r| ==> IsSpace(s[i])
    decreases |s|
  {
    if s != [] && IsSpace(s[0]) then
      assert s == [s[0]] + s[1..];
      TrimLeft(s[1..])
    else s
  }

  /** Trailing whitespace removed (the second half of `str.strip`). */
  function TrimRight(s: string): (r: string)
    ensures |r| <= |s| && r == s[..|r|]
    ensures r != [] ==> !IsSpace(r[|r| - 1])
    ensures forall i :: |r| <= i < |s| ==> IsSpace(s[i])
    decreases |s|
  {
    if s != [] && IsSpace(s[|s| - 1]) then
      assert s == s[..|s| - 1] + [s[|s| - 1]];
      TrimRight(s[..|s| - 1])
    else s
  }

  /** `r` is the slice of `s` starting at `i`, and everything of `s` before
      and after that slice is whitespace. */
  predicate StrippedAt(s: string, r: string, i: nat) {
    && i + |r| <= |s| && r == s[i..i + |r|]
    && (forall j :: 0 <= j < i ==> IsSpace(s[j]))
    && (forall j :: i + |r| <= j < |s| ==> IsSpace(s[j]))
  }

  /** A prefix of a suffix is a slice, and the rest of the suffix is the
      rest of the sequence. */
  lemma SliceBetween<T>(s: seq<T>, left: seq<T>, r: seq<T>)
    requires |left| <= |s| && left == s[|s| - |left|..]
    requires |r| <= |left| && r == left[..|r|]
    ensures var i := |s| - |left|;
      && r == s[i..i + |r|]
      && forall j :: i + |r| <= j < |s| ==> s[j] == left[j - i]
  {
  }

  /** Whitespace at the end of a suffix is whitespace at the end of the
      whole text. */
  lemma SpaceAfter(s: string, i: nat, left: string, n: nat)
    requires i <= |s| && left == s[i..] && n <= |left|
    requires forall k :: n <= k < |left| ==> IsSpace(left[k])
    ensures forall j :: i + n <= j < |s| ==> IsSpace(s[j])
  {
    forall j | i + n <= j < |s|
      ensures IsSpace(s[j])
    {
      assert s[j] == left[j - i];
    }
  }

  /** Whitespace trimmed from the left, giving `left`, then from the right,
      giving `r`: `r` is the slice of `s` between the two trimmed ends. */
  lemma TrimmedBetween(s: string, left: string, r: string)
    requires |left| <= |s| && left == s[|s| - |left|..]
    requires forall j :: 0 <= j < |s| - |left| ==> IsSpace(s[j])
    requires |r| <= |left| && r == left[..|r|]
    requires forall k :: |r| <= k < |left| ==> IsSpace(left[k])
    ensures StrippedAt(s, r, |s| - |left|)
  {
    SliceBetween(s, left, r);
    SpaceAfter(s, |s| - |left|, left, |r|);
  }

  /** `s.strip()`: the text with exactly its leading and trailing whitespace
      removed, so that neither end of the result is whitespace. */
  function Strip(s: string): (r: string)
    ensures r != [] ==> !IsSpace(r[0]) && !IsSpace(r[|r| - 1])
    ensures exists i :: StrippedAt(s, r, i)
  {
    TrimmedBetween(s, TrimLeft(s), TrimRight(TrimLeft(s)));
    TrimRight(TrimLeft(s))
  }

  /** Trimming the left end loses no character other than whitespace. */
  lemma {:induction false} TrimLeftKeeps(s: string, c: char)
    requires !IsSpace(c)
    ensures c in TrimLeft(s) <==> c in s
    decreases |s|
  {
    if s != [] && IsSpace(s[0]) {
      assert s == [s[0]] + s[1..];
      TrimLeftKeeps(s[1..], c);
    }
  }

  /** Trimming the right end loses no character other than whitespace. */
  lemma {:induction false} TrimRightKeeps(s: string, c: char)
    requires !IsSpace(c)
    ensures c in TrimRight(s) <==> c in s
    decreases |s|
  {
    if s != [] && IsSpace(s[|s| - 1]) {
      assert s == s[..|s| - 1] + [s[|s| - 1]];
      TrimRightKeeps(s[..|s| - 1], c);
    }
  }

  /** `strip` loses no character other than whitespace. */
  lemma StripKeeps(s: string, c: char)
    requires !IsSpace(c)
    ensures c in Strip(s) <==> c in s
  {
    TrimLeftKeeps(s, c);
    TrimRightKeeps(TrimLeft(s), c);
  }

  /** `t` occurs in `s` starting at position `i`. */
  predicate OccursAt(s: string, t: string, i: nat) {
    i + |t| <= |s| && s[i..i + |t|] == t
  }

  /** An occurrence past the first position is an occurrence in the tail. */
  lemma OccursInTail(s: string, t: string)
    requires s != []
    ensures OccursAt(s, t, 0) <==> t <= s
    ensures forall i: nat :: OccursAt(s, t, i + 1) <==> OccursAt(s[1..], t, i)
  {
    forall i: nat | OccursAt(s[1..], t, i)
      ensures OccursAt(s, t, i + 1)
    {
      assert s[1..][i..i + |t|] == s[i + 1..i + 1 + |t|];
    }
    forall i: nat | OccursAt(s, t, i + 1)
      ensures OccursAt(s[1..], t, i)
    {
      assert s[1..][i..i + |t|] == s[i + 1..i + 1 + |t|];
    }
  }

  /** Python's `t in s` for strings: `t` occurs as a contiguous substring. */
  predicate Contains(s: string, t: string)
    decreases |s|
  {
    t <= s || (s != [] && Contains(s[1..], t))
  }

  /** `t in s` holds exactly when `t` occurs in `s` at some position. */
  lemma {:induction false} ContainsOccurs(s: string, t: string)
    ensures Contains(s, t) <==> exists i: nat :: OccursAt(s, t, i)
    decreases |s|
  {
    if s == [] {
      assert forall i: nat :: OccursAt(s, t, i) ==> t == [] && t <= s;
      assert t <= s ==> OccursAt(s, t, 0);
    } else {
      OccursInTail(s, t);
      ContainsOccurs(s[1..], t);
      assert forall i: nat :: OccursAt(s, t, i) ==> i == 0 || OccursAt(s[1..], t, i - 1);
    }
  }

  /** `s.split(sep)`: the pieces between separators, in order; never empty. */
  function Split(s: string, sep: char): (parts: seq<string>)
    ensures |parts| >= 1
    ensures forall i :: 0 <= i < |parts| ==> sep !in parts[i]
    ensures |parts| >= 2 <==> sep in s
    decreases |s|
  {
    if s == [] then [[]]
    else
      var rest := Split(s[1..], sep);
      assert s == [s[0]] + s[1..];
      if s[0] == sep then [[]] + rest
      else [[s[0]] + rest[0]] + rest[1..]
  }

  /** `sep.join(parts)`: the first part comes first, and when no part holds
      the separator it occurs in the result exactly when there are two or
      more parts. */
  function Join(parts: seq<string>, sep: char): (r: string)
    ensures |parts| >= 1 ==> parts[0] <= r
    ensures (forall i :: 0 <= i < |parts| ==> sep !in parts[i]) ==> (sep in r <==> |parts| >= 2)
    decreases |parts|
  {
    if |parts| == 0 then []
    else if |parts| == 1 then parts[0]
    else parts[0] + [sep] + Join(parts[1..], sep)
  }

  /** Joining the pieces of a split gives back the original string. */
  lemma {:induction false} JoinSplit(s: string, sep: char)
    ensures Join(Split(s, sep), sep) == s
    decreases |s|
  {
    if s != [] {
      JoinSplit(s[1..], sep);
      var rest := Split(s[1..], sep);
      if s[0] == sep {
        assert ([[]] + rest)[1..] == rest;
      } else if |rest| >= 2 {
        var parts := [[s[0]] + rest[0]] + rest[1..];
        assert parts[1..] == rest[1..];
      }
    }
  }

  /** A string without the separator splits into itself alone. */
  lemma {:induction false} SplitNoSep(s: string, sep: char)
    requires sep !in s
    ensures Split(s, sep) == [s]
    decreases |s|
  {
    if s != [] {
      SplitNoSep(s[1..], sep);
      assert s[0] != sep && [s[0]] + s[1..] == s;
    }
  }

  /** Splitting at the first separator peels off the text before it. */
  lemma {:induction false} SplitAtFirst(x: string, y: string, sep: char)
    requires sep !in x
    ensures Split(x + [sep] + y, sep) == [x] + Split(y, sep)
    decreases |x|
  {
    var s := x + [sep] + y;
    if x == [] {
      assert s[1..] == y;
    } else {
      assert s[1..] == x[1..] + [sep] + y;
      SplitAtFirst(x[1..], y, sep);
      assert s[0] == x[0] != sep && [x[0]] + x[1..] == x;
    }
  }

  /** Splitting the join of separator-free pieces gives back the pieces. */
  lemma {:induction false} SplitJoin(parts: seq<string>, sep: char)
    requires |parts| >= 1
    requires forall i :: 0 <= i < |parts| ==> sep !in parts[i]
    ensures Split(Join(parts, sep), sep) == parts
    decreases |parts|
  {
    if |parts| == 1 {
      SplitNoSep(parts[0], sep);
    } else {
      SplitJoin(parts[1..], sep);
      SplitAtFirst(parts[0], Join(parts[1..], sep), sep);
    }
  }

  /** `s.replace(pat, "")`: every occurrence of `pat` found by a left-to-right,
      non-overlapping scan of `s` is removed. */
  function RemoveAll(s: string, pat: string): (r: string)
    requires pat != []
    ensures |r| <= |s|
    ensures !Contains(s, pat) ==> r == s
    decreases |s|
  {
    if s == [] then []
    else if pat <= s then RemoveAll(s[|pat|..], pat)
    else [s[0]] + RemoveAll(s[1..], pat)
  }

  /** An occurrence of the pattern after a prefix that cannot start it is
      removed, and the replacement carries on after it. */
  lemma RemoveAllRemovesOccurrence(x: string, y: string, pat: string)
    requires pat != [] && pat[0] !in x
    ensures RemoveAll(x + pat + y, pat) == x + RemoveAll(y, pat)
  {
    RemoveAllKeepsPrefix(x, pat + y, pat);
    assert x + pat + y == x + (pat + y);
    assert (pat + y)[|pat|..] == y;
  }

  /** A prefix none of whose characters can start `pat` passes through untouched. */
  lemma {:induction false} RemoveAllKeepsPrefix(x: string, y: string, pat: string)
    requires pat != []
    requires pat[0] !in x
    ensures RemoveAll(x + y, pat) == x + RemoveAll(y, pat)
    decreases |x|
  {
    if x == [] {
      assert x + y == y && x + RemoveAll(y, pat) == RemoveAll(y, pat);
    } else {
      var s := x + y;
      assert s[0] == x[0] != pat[0];
      assert s[1..] == x[1..] + y;
      assert !(pat <= s) by { assert pat[0] != s[0]; }
      assert s != [];
      assert RemoveAll(s, pat) == [s[0]] + RemoveAll(s[1..], pat);
      RemoveAllKeepsPrefix(x[1..], y, pat);
      assert [x[0]] + x[1..] == x;
      assert [x[0]] + (x[1..] + RemoveAll(y, pat)) == x + RemoveAll(y, pat);
    }
  }
}

=== FILE: timing.dfy ===
/** Extraction of execution times from EXPLAIN ANALYZE output. For each of the
    three fixed queries the plan rows are joined with newlines and split back
    into lines; every line containing "Execution Time" is parsed as
    float(line.strip().split(":")[1].replace(" ms", "")) and stored under the
    query's name, so the last such line wins, a plan without one leaves the
    name out, and a bad line raises and ends the whole run. */
module Timing {
  import opened Outcomes
  import opened Strings
  import Indexes

  /** The two exceptions the per-line parse can raise: IndexError from
      `split(":")[1]` on a line with no colon, ValueError from `float`. */
  datatype TimingError = MissingColon | NotAFloat(text: string)

  datatype Query = Query(name: string, sql: string)

  const Marker: string := "Execution Time"
  const Unit: string := " ms"

  const Queries: seq<Query> := [
    Query("JSONB Query", "SELECT * FROM users WHERE profile @> '{\"prefs\": {\"theme\": \"dark\"}}';"),
    Query("Array Query", "SELECT * FROM articles WHERE 'postgres' = ANY(tags);"),
    Query("Full-Text Query", "SELECT * FROM documents WHERE to_tsvector('english', content) @@ to_tsquery('english', 'GIN & indexes');")
  ]

  const QueryNames: set<string> := {"JSONB Query", "Array Query", "Full-Text Query"}

  function NamesOf(qs: seq<Query>): set<string> {
    set q | q in qs :: q.name
  }

  predicate DistinctNames(qs: seq<Query>) {
    forall i, j :: 0 <= i < j < |qs| ==> qs[i].name != qs[j].name
  }

  lemma QueriesAreDistinct()
    ensures DistinctNames(Queries)
    ensures NamesOf(Queries) == QueryNames
  {
    assert Queries[0].name == "JSONB Query";
    assert Queries[1].name == "Array Query";
    assert Queries[2].name == "Full-Text Query";
  }

  /** The statement actually sent to the store. */
  function Statement(q: Query): string {
    "EXPLAIN ANALYZE " + q.sql
  }

  /** `"\n".join(rows).split("\n")`: at least one line, none holding a
      newline, and joined back they give the joined rows. */
  function PlanLines(rows: seq<string>): (lines: seq<string>)
    ensures |lines| >= 1
    ensures forall i :: 0 <= i < |lines| ==> '\n' !in lines[i]
    ensures Join(lines, '\n') == Join(rows, '\n')
  {
    JoinSplit(Join(rows, '\n'), '\n');
    Split(Join(rows, '\n'), '\n')
  }

  /** When no row holds a newline, the plan lines are exactly the rows. */
  lemma PlanLinesAreRows(rows: seq<string>)
    requires |rows| >= 1
    requires forall i :: 0 <= i < |rows| ==> '\n' !in rows[i]
    ensures PlanLines(rows) == rows
  {
    SplitJoin(rows, '\n');
  }

  /** The lines the store returned for query q while the indexes `live` existed. */
  function QueryLines(q: Query, live: set<Indexes.Index>, explain: (set<Indexes.Index>, string) -> seq<string>): seq<string> {
    PlanLines(explain(live, Statement(q)))
  }

  /** The value of digits with at most one '.', at least one digit. */
  function ParseUnsigned(body: string): Option<real> {
    var parts := Split(body, '.');
    var whole := parts[0];
    var frac := if |parts| == 2 then parts[1] else [];
    if |parts| <= 2 && AllDigits(whole) && AllDigits(frac) && |whole| + |frac| > 0 then
      Some(DigitsValue(whole) as real + FractionValue(frac))
    else None
  }

  /** Python's `float(text)` for the plain decimal form: surrounding whitespace,
      an optional sign, then digits with at most one '.'. */
  function ParseFloat(text: string): (r: Result<real, TimingError>)
    ensures r.Err? ==> r.error == NotAFloat(text)
  {
    var t := Strip(text);
    var signed := t != [] && (t[0] == '-' || t[0] == '+');
    match ParseUnsigned(if signed then t[1..] else t)
    case None => Err(NotAFloat(text))
    case Some(v) => Ok(if signed && t[0] == '-' then -v else v)
  }

  /** `float(line.strip().split(":")[1].replace(" ms", ""))`: only the text
      between the first and the second colon is read. */
  function ParseTimingLine(line: string): (r: Result<real, TimingError>)
    ensures r == Err(MissingColon) <==> ':' !in line
  {
    StripKeeps(line, ':');
    var fields := Split(Strip(line), ':');
    if |fields| < 2 then Err(MissingColon) else ParseFloat(RemoveAll(fields[1], Unit))
  }

  /** The fraction w.f written out in decimal. */
  function DecimalValue(w: nat, f: string): real
    requires AllDigits(f)
  {
    w as real + FractionValue(f)
  }

  lemma StripUnchanged(s: string)
    requires s != [] && !IsSpace(s[0]) && !IsSpace(s[|s| - 1])
    ensures Strip(s) == s
  {
  }

  /** Leading blanks before the number go. */
  lemma {:induction false} StripBeforeNumber(w: nat, f: string)
    requires AllDigits(f)
    ensures Strip(" " + Decimal(w) + "." + f) == Decimal(w) + "." + f
  {
    var core := Decimal(w) + "." + f;
    var text := " " + core;
    assert " " + Decimal(w) + "." + f == text;
    assert IsDigit(Decimal(w)[0]) && core[0] == Decimal(w)[0];
    assert !IsSpace(core[0]);
    assert IsSpace(text[0]) && text[1..] == core;
    assert TrimLeft(text) == core;
    var last := core[|core| - 1];
    assert !IsSpace(last) by {
      if f != [] { assert last == f[|f| - 1]; } else { assert last == '.'; }
    }
    assert TrimRight(core) == core;
  }

  /** The digits-dot-digits body "w.f" has the value w.f. */
  lemma {:induction false} ParseUnsignedReadsDecimal(w: nat, f: string)
    requires AllDigits(f)
    ensures ParseUnsigned(Decimal(w) + "." + f) == Some(DecimalValue(w, f))
  {
    var d := Decimal(w);
    assert '.' !in d;
    assert '.' !in f;
    SplitAtFirst(d, f, '.');
    SplitNoSep(f, '.');
    var parts := Split(d + "." + f, '.');
    assert parts[0] == d && parts[1] == f && |parts| == 2;
    assert AllDigits(d) && DigitsValue(d) == w;
  }

  /** "w.f" starts with a digit, so it carries no sign. */
  lemma StartsWithDigit(w: nat, f: string)
    ensures var core := Decimal(w) + "." + f;
      core != [] && IsDigit(core[0])
  {
    var d := Decimal(w);
    assert IsDigit(d[0]) && (d + "." + f)[0] == d[0];
  }

  /** Text that strips to an unsigned number starting with a digit reads as
      that number. */
  lemma ParseFloatUnsigned(text: string, v: real)
    requires Strip(text) != [] && IsDigit(Strip(text)[0])
    requires ParseUnsigned(Strip(text)) == Some(v)
    ensures ParseFloat(text) == Ok(v)
  {
  }

  /** float() reads any text that strips to "w.f" as the number w.f. */
  lemma {:induction false} ParseFloatReadsDecimal(w: nat, f: string, text: string)
    requires AllDigits(f)
    requires Strip(text) == Decimal(w) + "." + f
    ensures ParseFloat(text) == Ok(DecimalValue(w, f))
  {
    ParseUnsignedReadsDecimal(w, f);
    StartsWithDigit(w, f);
    ParseFloatUnsigned(text, DecimalValue(w, f));
  }

  /** "Execution Time: w.f ms" is the marker, a colon and a tail with no
      colon, and has no blanks to strip. */
  lemma {:induction false} TimingLineShape(w: nat, f: string)
    requires AllDigits(f)
    ensures var line := "Execution Time: " + Decimal(w) + "." + f + " ms";
      var tail := " " + Decimal(w) + "." + f + " ms";
      && line == "Execution Time" + [':'] + tail
      && ':' !in tail
      && Strip(line) == line
  {
    var core := Decimal(w) + "." + f;
    var tail := " " + core + " ms";
    assert " " + Decimal(w) + "." + f + " ms" == tail;
    var line := "Execution Time: " + Decimal(w) + "." + f + " ms";
    assert line == "Execution Time" + [':'] + tail;
    assert line[0] == 'E' && line[|line| - 1] == 's';
    StripUnchanged(line);
    assert ':' !in Decimal(w) && ':' !in f;
  }

  lemma MarkerHasNoColon()
    ensures ':' !in Marker
  {
    assert forall j :: 0 <= j < |Marker| ==> Marker[j] != ':';
  }

  /** The field after the colon of "Execution Time: w.f ms". */
  lemma {:induction false} TimingLineFields(w: nat, f: string)
    requires AllDigits(f)
    ensures var line := "Execution Time: " + Decimal(w) + "." + f + " ms";
      Split(Strip(line), ':') == ["Execution Time", " " + Decimal(w) + "." + f + " ms"]
  {
    var line := "Execution Time: " + Decimal(w) + "." + f + " ms";
    var tail := " " + Decimal(w) + "." + f + " ms";
    TimingLineShape(w, f);
    MarkerHasNoColon();
    SplitAtFirst(Marker, tail, ':');
    SplitNoSep(tail, ':');
    assert Split(Strip(line), ':') == Split(Marker + [':'] + tail, ':');
  }

  /** Removing " ms" from " w.f ms" leaves " w.f". */
  lemma {:induction false} UnitRemoved(w: nat, f: string)
    requires AllDigits(f)
    ensures RemoveAll(" " + Decimal(w) + "." + f + " ms", Unit) == " " + Decimal(w) + "." + f
  {
    var core := Decimal(w) + "." + f;
    var tail := " " + core + " ms";
    assert " " + Decimal(w) + "." + f + " ms" == tail;
    assert " " + Decimal(w) + "." + f == [' '] + core;
    assert ' ' !in Decimal(w) && ' ' !in f;
    assert ' ' !in core;
    assert IsDigit(Decimal(w)[0]);
    assert !(Unit <= tail) by { assert tail[1] == core[0] == Decimal(w)[0]; }
    assert tail[1..] == core + Unit;
    assert RemoveAll(tail, Unit) == [' '] + RemoveAll(core + Unit, Unit);
    RemoveAllKeepsPrefix(core, Unit, Unit);
    assert RemoveAll(Unit, Unit) == [];
    assert core + [] == core;
  }

  /** A line "Execution Time: w.f ms" is read as the number w.f. */
  lemma {:induction false} TimingLineReadsMillis(w: nat, f: string)
    requires AllDigits(f)
    ensures ParseTimingLine("Execution Time: " + Decimal(w) + "." + f + " ms") == Ok(DecimalValue(w, f))
  {
    TimingLineFields(w, f);
    UnitRemoved(w, f);
    StripBeforeNumber(w, f);
    ParseFloatReadsDecimal(w, f, " " + Decimal(w) + "." + f);
  }

  lemma ExampleLineSpelling()
    ensures "Execution Time: " + "12" + "." + "345" + " ms" == "Execution Time: 12.345 ms"
  {
    assert "Execution Time: " + "12" == "Execution Time: 12";
    assert "Execution Time: 12" + "." == "Execution Time: 12.";
    assert "Execution Time: 12." + "345" == "Execution Time: 12.345";
    assert "Execution Time: 12.345" + " ms" == "Execution Time: 12.345 ms";
  }

  /** The line PostgreSQL prints reads as 12.345. */
  lemma TimingLineExample()
    ensures ParseTimingLine("Execution Time: 12.345 ms") == Ok(12.345)
  {
    assert DigitChar(1) == '1' && DigitChar(2) == '2';
    assert Decimal(1) == "1";
    assert Decimal(12) == Decimal(1) + [DigitChar(2)];
    assert Decimal(12) == "12";
    var f := "345";
    assert AllDigits(f);
    assert FractionValue(f) == 0.345 by {
      assert f[1..] == "45" && f[1..][1..] == "5" && f[1..][1..][1..] == "";
    }
    TimingLineReadsMillis(12, f);
    ExampleLineSpelling();
  }

  /** The index of the last line containing the marker, if any. */
  function LastMarker(lines: seq<string>): (k: Option<nat>)
    ensures k.None? <==> forall j :: 0 <= j < |lines| ==> !Contains(lines[j], Marker)
    ensures k.Some? ==> k.value < |lines| && Contains(lines[k.value], Marker)
    ensures k.Some? ==> forall j :: k.value < j < |lines| ==> !Contains(lines[j], Marker)
    decreases |lines|
  {
    if lines == [] then None
    else
      match LastMarker(lines[1..])
      case Some(k) => Some(k + 1)
      case None => if Contains(lines[0], Marker) then Some(0) else None
  }

  /** The per-line parse the scan applies to each marker line; the harness
      uses `ParseTimingLine`. */
  type LineParser = string -> Result<real, TimingError>

  /** The inner loop over the plan lines of one query, `acc` being the value
      already stored under that query's name. ScanKeepsLast and ScanFailsIff
      state what it computes. */
  function ScanLines(lines: seq<string>, parse: LineParser, acc: Option<real>): Result<Option<real>, TimingError>
    decreases |lines|
  {
    if lines == [] then Ok(acc)
    else if Contains(lines[0], Marker) then
      match parse(lines[0])
      case Err(e) => Err(e)
      case Ok(v) => ScanLines(lines[1..], parse, Some(v))
    else ScanLines(lines[1..], parse, acc)
  }

  /** When the scan succeeds, the stored value is that of the LAST marker line,
      or the previous value when there is no marker line. */
  lemma {:induction false} ScanKeepsLast(lines: seq<string>, parse: LineParser, acc: Option<real>)
    requires ScanLines(lines, parse, acc).Ok?
    ensures LastMarker(lines).None? ==> ScanLines(lines, parse, acc).value == acc
    ensures LastMarker(lines).Some? ==>
      var k := LastMarker(lines).value;
      parse(lines[k]).Ok? && ScanLines(lines, parse, acc).value == Some(parse(lines[k]).value)
    decreases |lines|
  {
    if lines != [] {
      if Contains(lines[0], Marker) {
        ScanKeepsLast(lines[1..], parse, Some(parse(lines[0]).value));
      } else {
        ScanKeepsLast(lines[1..], parse, acc);
      }
    }
  }

  /** The scan fails exactly when some marker line does not parse. */
  lemma {:induction false} ScanFailsIff(lines: seq<string>, parse: LineParser, acc: Option<real>)
    ensures ScanLines(lines, parse, acc).Err? <==>
      exists j :: 0 <= j < |lines| && Contains(lines[j], Marker) && parse(lines[j]).Err?
    decreases |lines|
  {
    if lines != [] {
      var rest := lines[1..];
      var next := if Contains(lines[0], Marker) && parse(lines[0]).Ok?
        then Some(parse(lines[0]).value) else acc;
      ScanFailsIff(rest, parse, next);
      if exists j :: 0 <= j < |rest| && Contains(rest[j], Marker) && parse(rest[j]).Err? {
        var j :| 0 <= j < |rest| && Contains(rest[j], Marker) && parse(rest[j]).Err?;
        assert lines[j + 1] == rest[j];
      }
      if exists j :: 0 <= j < |lines| && Contains(lines[j], Marker) && parse(lines[j]).Err? {
        var j :| 0 <= j < |lines| && Contains(lines[j], Marker) && parse(lines[j]).Err?;
        if j > 0 {
          assert rest[j - 1] == lines[j];
        }
      }
    }
  }

  /** The entry stored under `k`, if any. */
  function Get(m: map<string, real>, k: string): (o: Option<real>)
    ensures o.Some? <==> k in m
    ensures o.Some? ==> o.value == m[k]
  {
    if k in m then Some(m[k]) else None
  }

  /** `results[query_name] = time_ms` when the scan found a value; otherwise
      the map is left alone. */
  function Put(m: map<string, real>, k: string, o: Option<real>): (r: map<string, real>)
    ensures Get(r, k) == if o.Some? then o else Get(m, k)
    ensures forall k' :: k' != k ==> Get(r, k') == Get(m, k')
  {
    match o
    case None => m
    case Some(v) => m[k := v]
  }

  /** The outer loop over the queries, in their fixed order; `acc` is the
      `results` dict built so far. A successful run keeps every key of `acc`
      and adds keys only under the query names. */
  function Timings(qs: seq<Query>, live: set<Indexes.Index>, explain: (set<Indexes.Index>, string) -> seq<string>,
                   parse: LineParser, acc: map<string, real>): (r: Result<map<string, real>, TimingError>)
    ensures r.Ok? ==> acc.Keys <= r.value.Keys <= acc.Keys + NamesOf(qs)
    decreases |qs|
  {
    if qs == [] then Ok(acc)
    else
      match ScanLines(QueryLines(qs[0], live, explain), parse, Get(acc, qs[0].name))
      case Err(e) => Err(e)
      case Ok(o) => Timings(qs[1..], live, explain, parse, Put(acc, qs[0].name, o))
  }

  /** One step of the scan, from line k on. */
  lemma ScanStep(lines: seq<string>, k: nat, parse: LineParser, acc: Option<real>)
    requires k < |lines|
    ensures !Contains(lines[k], Marker) ==>
      ScanLines(lines[k..], parse, acc) == ScanLines(lines[k + 1..], parse, acc)
    ensures Contains(lines[k], Marker) && parse(lines[k]).Err? ==>
      ScanLines(lines[k..], parse, acc) == Err(parse(lines[k]).error)
    ensures Contains(lines[k], Marker) && parse(lines[k]).Ok? ==>
      ScanLines(lines[k..], parse, acc) == ScanLines(lines[k + 1..], parse, Some(parse(lines[k]).value))
  {
    assert lines[k..][0] == lines[k] && lines[k..][1..] == lines[k + 1..];
  }

  /** One step of the run, from query i on. */
  lemma TimingsStep(qs: seq<Query>, i: nat, live: set<Indexes.Index>, explain: (set<Indexes.Index>, string) -> seq<string>,
                    parse: LineParser, acc: map<string, real>)
    requires i < |qs|
    ensures var s := ScanLines(QueryLines(qs[i], live, explain), parse, Get(acc, qs[i].name));
      Timings(qs[i..], live, explain, parse, acc) ==
        if s.Err? then Err(s.error) else Timings(qs[i + 1..], live, explain, parse, Put(acc, qs[i].name, s.value))
  {
    assert qs[i..][0] == qs[i] && qs[i..][1..] == qs[i + 1..];
  }

  /** The first name of a list of distinct names is not among the others'. */
  lemma FirstNameFresh(qs: seq<Query>)
    requires qs != [] && DistinctNames(qs)
    ensures DistinctNames(qs[1..])
    ensures qs[0].name !in NamesOf(qs[1..])
    ensures NamesOf(qs) == {qs[0].name} + NamesOf(qs[1..])
  {
    var rest := qs[1..];
    assert qs == [qs[0]] + rest;
  }

  /** Storing the first query's entry keeps the other names fresh. */
  lemma RestStaysFresh(qs: seq<Query>, acc: map<string, real>, o: Option<real>)
    requires qs != [] && DistinctNames(qs)
    requires forall i :: 0 <= i < |qs| ==> qs[i].name !in acc
    ensures forall i :: 0 <= i < |qs| - 1 ==> qs[1..][i].name !in Put(acc, qs[0].name, o)
  {
    forall i | 0 <= i < |qs| - 1 ensures qs[1..][i].name !in Put(acc, qs[0].name, o) {
      assert qs[1..][i] == qs[i + 1];
    }
  }

  /** Unfolding the run at a first query whose name is not stored yet: its
      scan starts from nothing, succeeds, and the run goes on from its entry. */
  lemma TimingsHead(qs: seq<Query>, live: set<Indexes.Index>, explain: (set<Indexes.Index>, string) -> seq<string>,
                    parse: LineParser, acc: map<string, real>, m: map<string, real>)
    requires qs != [] && qs[0].name !in acc
    requires Timings(qs, live, explain, parse, acc) == Ok(m)
    ensures var s := ScanLines(QueryLines(qs[0], live, explain), parse, None);
      s.Ok? && Timings(qs[1..], live, explain, parse, Put(acc, qs[0].name, s.value)) == Ok(m)
  {
    assert Get(acc, qs[0].name) == None;
  }

  /** With query names not yet stored, a successful run keeps every entry of
      `acc` and adds keys only under the query names. */
  lemma {:induction false} TimingsKeepsAcc(qs: seq<Query>, live: set<Indexes.Index>,
                                           explain: (set<Indexes.Index>, string) -> seq<string>,
                                           parse: LineParser, acc: map<string, real>, m: map<string, real>)
    requires DistinctNames(qs)
    requires forall i :: 0 <= i < |qs| ==> qs[i].name !in acc
    requires Timings(qs, live, explain, parse, acc) == Ok(m)
    ensures m.Keys <= acc.Keys + NamesOf(qs)
    ensures forall k :: k in acc ==> k in m && m[k] == acc[k]
    decreases |qs|
  {
    if qs != [] {
      var o := ScanLines(QueryLines(qs[0], live, explain), parse, None).value;
      TimingsHead(qs, live, explain, parse, acc, m);
      FirstNameFresh(qs);
      RestStaysFresh(qs, acc, o);
      TimingsKeepsAcc(qs[1..], live, explain, parse, Put(acc, qs[0].name, o), m);
    }
  }

  /** With distinct, fresh query names, each query's entry in the result is
      exactly what scanning its own plan lines produced. */
  lemma {:induction false} TimingsEntries(qs: seq<Query>, live: set<Indexes.Index>,
                                          explain: (set<Indexes.Index>, string) -> seq<string>,
                                          parse: LineParser, acc: map<string, real>, m: map<string, real>)
    requires DistinctNames(qs)
    requires forall i :: 0 <= i < |qs| ==> qs[i].name !in acc
    requires Timings(qs, live, explain, parse, acc) == Ok(m)
    ensures forall i :: 0 <= i < |qs| ==>
      ScanLines(QueryLines(qs[i], live, explain), parse, None) == Ok(Get(m, qs[i].name))
    decreases |qs|
  {
    if qs != [] {
      var rest := qs[1..];
      var o := ScanLines(QueryLines(qs[0], live, explain), parse, None).value;
      var acc' := Put(acc, qs[0].name, o);
      TimingsHead(qs, live, explain, parse, acc, m);
      FirstNameFresh(qs);
      RestStaysFresh(qs, acc, o);
      TimingsKeepsAcc(rest, live, explain, parse, acc', m);
      assert Get(m, qs[0].name) == o;
      TimingsEntries(rest, live, explain, parse, acc', m);
      forall i | 1 <= i < |qs|
        ensures ScanLines(QueryLines(qs[i], live, explain), parse, None) == Ok(Get(m, qs[i].name))
      {
        assert qs[i] == rest[i - 1];
      }
    }
  }

  /** Whatever the plans and the line parse, a run of the three queries only
      ever stores under their names. */
  lemma TimingsKeys(live: set<Indexes.Index>, explain: (set<Indexes.Index>, string) -> seq<string>, parse: LineParser)
    ensures var t := Timings(Queries, live, explain, parse, map[]);
      t.Ok? ==> t.value.Keys <= QueryNames
  {
    var t := Timings(Queries, live, explain, parse, map[]);
    if t.Ok? {
      QueriesAreDistinct();
      TimingsKeepsAcc(Queries, live, explain, parse, map[], t.value);
    }
  }

  /** Whether a scan fails does not depend on the value stored before it. */
  lemma ScanErrIgnoresStart(lines: seq<string>, parse: LineParser, acc: Option<real>)
    ensures ScanLines(lines, parse, acc).Err? <==> ScanLines(lines, parse, None).Err?
  {
    ScanFailsIff(lines, parse, None);
    ScanFailsIff(lines, parse, acc);
  }

  /** A run of the queries fails exactly when some query's scan fails. */
  lemma {:induction false} TimingsFailIff(qs: seq<Query>, live: set<Indexes.Index>,
                                          explain: (set<Indexes.Index>, string) -> seq<string>,
                                          parse: LineParser, acc: map<string, real>)
    ensures Timings(qs, live, explain, parse, acc).Err? <==>
      exists i :: 0 <= i < |qs| && ScanLines(QueryLines(qs[i], live, explain), parse, None).Err?
    decreases |qs|
  {
    if qs != [] {
      var rest := qs[1..];
      var lines := QueryLines(qs[0], live, explain);
      var start := Get(acc, qs[0].name);
      var scan := ScanLines(lines, parse, start);
      ScanErrIgnoresStart(lines, parse, start);
      TimingsStep(qs, 0, live, explain, parse, acc);
      assert qs[0..] == qs && qs[1..] == rest;
      if scan.Err? {
        assert ScanLines(QueryLines(qs[0], live, explain), parse, None).Err?;
      } else {
        TimingsFailIff(rest, live, explain, parse, Put(acc, qs[0].name, scan.value));
        if exists i :: 0 <= i < |qs| && ScanLines(QueryLines(qs[i], live, explain), parse, None).Err? {
          var i :| 0 <= i < |qs| && ScanLines(QueryLines(qs[i], live, explain), parse, None).Err?;
          assert i > 0;
          assert rest[i - 1] == qs[i];
        }
        if exists i :: 0 <= i < |rest| && ScanLines(QueryLines(rest[i], live, explain), parse, None).Err? {
          var i :| 0 <= i < |rest| && ScanLines(QueryLines(rest[i], live, explain), parse, None).Err?;
          assert qs[i + 1] == rest[i];
        }
      }
    }
  }

  /** What `run_queries` promises, for the three fixed queries and whatever
      plans the store returns: a result only under the three names; a name is
      present exactly when its plan has an "Execution Time" line, and then holds
      the value of the last such line; the run fails exactly when some such
      line does not parse. */
  lemma QueryTimingsMeaning(live: set<Indexes.Index>, explain: (set<Indexes.Index>, string) -> seq<string>)
    ensures var t := Timings(Queries, live, explain, ParseTimingLine, map[]);
      t.Err? <==>
        exists i, j :: 0 <= i < |Queries| && 0 <= j < |QueryLines(Queries[i], live, explain)| &&
                       Contains(QueryLines(Queries[i], live, explain)[j], Marker) &&
                       ParseTimingLine(QueryLines(Queries[i], live, explain)[j]).Err?
    ensures var t := Timings(Queries, live, explain, ParseTimingLine, map[]);
      t.Ok? ==> t.value.Keys <= QueryNames
    ensures var t := Timings(Queries, live, explain, ParseTimingLine, map[]);
      t.Ok? ==> forall i :: 0 <= i < |Queries| ==>
        var lines := QueryLines(Queries[i], live, explain);
        && (Queries[i].name in t.value <==> LastMarker(lines).Some?)
        && (Queries[i].name in t.value ==>
              ParseTimingLine(lines[LastMarker(lines).value]) == Ok(t.value[Queries[i].name]))
  {
    var t := Timings(Queries, live, explain, ParseTimingLine, map[]);
    TimingsFailIff(Queries, live, explain, ParseTimingLine, map[]);
    forall i | 0 <= i < |Queries| {
      ScanFailsIff(QueryLines(Queries[i], live, explain), ParseTimingLine, None);
    }
    if t.Ok? {
      QueriesAreDistinct();
      TimingsKeepsAcc(Queries, live, explain, ParseTimingLine, map[], t.value);
      TimingsEntries(Queries, live, explain, ParseTimingLine, map[], t.value);
      forall i | 0 <= i < |Queries|
        ensures var lines := QueryLines(Queries[i], live, explain);
          && (Queries[i].name in t.value <==> LastMarker(lines).Some?)
          && (Queries[i].name in t.value ==>
                ParseTimingLine(lines[LastMarker(lines).value]) == Ok(t.value[Queries[i].name]))
      {
        ScanKeepsLast(QueryLines(Queries[i], live, explain), ParseTimingLine, None);
      }
    }
  }

  /** Lines without the marker are skipped and leave the stored value alone. */
  lemma {:induction false} ScanSkipsUnmarked(a: seq<string>, b: seq<string>, parse: LineParser, acc: Option<real>)
    requires forall j :: 0 <= j < |a| ==> !Contains(a[j], Marker)
    ensures ScanLines(a + b, parse, acc) == ScanLines(b, parse, acc)
    decreases |a|
  {
    if a != [] {
      assert (a + b)[0] == a[0];
      assert !Contains((a + b)[0], Marker);
      assert (a + b)[1..] == a[1..] + b;
      assert ScanLines(a + b, parse, acc) == ScanLines(a[1..] + b, parse, acc);
      ScanSkipsUnmarked(a[1..], b, parse, acc);
    } else {
      assert a + b == b;
    }
  }

  /** Unmarked lines followed by one marker line that parses: its value is stored. */
  lemma ScanLastLine(a: seq<string>, x: string, parse: LineParser, acc: Option<real>)
    requires forall j :: 0 <= j < |a| ==> !Contains(a[j], Marker)
    requires Contains(x, Marker) && parse(x).Ok?
    ensures ScanLines(a + [x], parse, acc) == Ok(Some(parse(x).value))
  {
    ScanSkipsUnmarked(a, [x], parse, acc);
    assert [x][1..] == [];
  }

  /** Marker lines that parse, then a marker line that does not: the scan
      ends with that line's error, whatever follows. */
  lemma {:induction false} ScanStopsAtFailure(a: seq<string>, x: string, b: seq<string>,
                                              parse: LineParser, acc: Option<real>)
    requires forall j :: 0 <= j < |a| ==> !Contains(a[j], Marker) || parse(a[j]).Ok?
    requires Contains(x, Marker) && parse(x).Err?
    ensures ScanLines(a + [x] + b, parse, acc) == Err(parse(x).error)
    decreases |a|
  {
    var lines := a + [x] + b;
    if a == [] {
      assert lines[0] == x && lines[1..] == b;
    } else {
      assert lines[0] == a[0] && lines[1..] == a[1..] + [x] + b;
      var next := if Contains(a[0], Marker) then Some(parse(a[0]).value) else acc;
      ScanStopsAtFailure(a[1..], x, b, parse, next);
    }
  }

  /** A timing line without a colon, after marker lines that all parse, ends
      the scan with the IndexError. */
  lemma ScanMissingColon(a: seq<string>, x: string, b: seq<string>, acc: Option<real>)
    requires forall j :: 0 <= j < |a| ==> !Contains(a[j], Marker) || ParseTimingLine(a[j]).Ok?
    requires Contains(x, Marker) && ':' !in x
    ensures ScanLines(a + [x] + b, ParseTimingLine, acc) == Err(MissingColon)
  {
    ScanStopsAtFailure(a, x, b, ParseTimingLine, acc);
  }
}
